=== FILE: README.md ===
# ruby-test-tracer: a Dafny model of the trace-context engine

`Test::Tracer` is an in-memory OpenTracing tracer for test suites. It records
every span it starts (`spans`) and every span that finishes
(`finished_spans`). It derives span contexts: a root context gets fresh
trace and span ids, and a child context keeps its parent's trace id and
shares its parent's baggage Hash. A span's parent is taken from the
`child_of` argument, else from the `references` list, else from the active
scope.

Active spans are kept on a per-tracer LIFO scope stack. Contexts propagate
through two carrier codecs, text-map and Rack. Spans follow a lifecycle in
which a span is finished exactly once and every mutation after that is
rejected.

The model is functional. A `World` value holds five parts:

- the identifier supply and the baggage Hash objects (`Store`);
- the span objects;
- the scope objects;
- the execution context's local store of scope lists;
- the tracer's own state: its lists, its scope manager, the codec registry and the unwrappers.

Every operation takes a world and returns the new world with a `Result`, so
a Ruby exception raised after a mutation keeps that mutation. Object
identity (the same span, the same baggage Hash, the same scope) is a
reference into these tables. That is how `child_of`'s baggage aliasing and
the stack's scope identity stay explicit.

Modules, one per file, following the source:

- `Values` (values.dfy): Ruby values, truthiness, `to_s`, the error taxonomy.
- `Ids` (ids.dfy): the fresh-identifier supply, a counter whose n-th identifier is the decimal text of n.
- `SpanContexts` (span_context.dfy): `SpanContext.new`/`root`/`child_of`, baggage and `==`.
- `Spans` (span.dfy): the span lifecycle.
- `ScopeStacks` (scope_stack.dfy): `ScopeStack` over the local store.
- `Heap` (heap.dfy): the object tables, heap validity, finish-once, and `Span.new`/`Span#finish` at tracer level.
- `Carriers`, `TextMapCodec`, `RackCodec`: the two codecs and the logic they share.
- `ScopeManagers` (scope_manager.dfy): `ScopeManager#activate`/`active` and `Scope#close`.
- `Tracing` (tracer.dfy): the registry, `inject`/`extract`, parent resolution, `start_span`, `start_active_span`, `active_span`, `clear`.

## Model

| member | source | states |
|---|---|---|
| Values.ToS | lib/test/span_context.rb:35-37 | `to_s`: a String is itself, nil is "", booleans print as true/false, and an Integer prints as canonical decimal (non-empty, digits only, no leading zero except "0"), with a leading minus when negative, that parses back to it |
| Values.IntText | lib/test/span_context.rb:35-37 | Integer#to_s: canonical decimal text that parses back to the number, a minus sign and a nonzero leading digit when negative |
| Values.DecimalLeadsWithNonZero | lib/test/span_context.rb:35-37 | the decimal text of a positive number never starts with '0' |
| Values.IntTextsDiffer | lib/test/span_context.rb:35-37 | two Integers print alike only when equal, and no Integer prints as nil does, so baggage keys `0` and `nil` stay apart |
| Values.DecimalRoundTrip | lib/test/id_provider.rb:6-8 | parsing the decimal text of n gives back n, so identifier texts never collide |
| Ids.IdText | lib/test/id_provider.rb:6-8 | a generated identifier is a non-empty String |
| Ids.IdTextInjective | lib/test/id_provider.rb:6-8 | two draws give the same identifier iff they are the same draw |
| Ids.FreshIdIsNew | lib/test/id_provider.rb:6-8 | the identifier drawn now differs from every identifier drawn before |
| Ids.NotIssuedYet | lib/test/id_provider.rb:6-8 | the identifier drawn at n was not issued before n and is issued from then on |
| SpanContexts.New | lib/test/span_context.rb:21-33 | succeeds iff trace and span id are Strings, the parent is a String or nil, and baggage is a Hash; otherwise TypeError with nothing allocated; the default baggage is a new empty Hash, a given Hash is used as the same object |
| SpanContexts.Root | lib/test/span_context.rb:4-7 | no parent; trace id and span id fresh and distinct from each other; a new empty baggage Hash |
| SpanContexts.ChildOf | lib/test/span_context.rb:9-14 | the parent's trace id, the parent's span id as parent, the parent's very baggage Hash, and a fresh span id |
| SpanContexts.ChildSpanIdIsNew | lib/test/span_context.rb:9-14 | a child's span id differs from its parent's span id and parent span id, provided the supply issued those ids |
| SpanContexts.ForeignParentMayShareChildSpanId | lib/test/span_context.rb:9-14 | a parent whose span id the supply did not issue may carry the very id its child receives |
| SpanContexts.SetBaggageItem | lib/test/span_context.rb:35-37 | writes `value.to_s` under `key.to_s` into the context's Hash; every other key and every other Hash is unchanged |
| SpanContexts.GetBaggageItem | lib/test/span_context.rb:39-41 | the entry under `key.to_s`, nil when absent |
| SpanContexts.BaggageGetAfterSet | lib/test/span_context.rb:35-41 | reading an item back gives the text written; keys with another `to_s` are unaffected |
| SpanContexts.BaggageAliasedWithChild | lib/test/span_context.rb:13 | a baggage write through parent or child is visible through the other |
| SpanContexts.Equal | lib/test/span_context.rb:47-53 | `==` on two contexts: equal exactly when the trace, span and parent span ids agree and the baggage contents are equal, whichever Hash objects hold them; every context equals itself |
| SpanContexts.TwoRootsDiffer | lib/test/span_context.rb:47-53 | two roots created in turn are never `==` |
| SpanContexts.EqualComparesBaggageContents | lib/test/span_context.rb:47-53 | `==` compares baggage contents, not Hash identity: a context rebuilt from its own ids with a new empty Hash equals the original exactly when the original's baggage is empty |
| SpanContexts.ChildNeverEqualsParent | lib/test/span_context.rb:9-14 | a child is never `==` to its parent when the supply issued the parent's span id |
| Spans.New | lib/test/span.rb:11-26 | TypeError iff the name is not a String; otherwise in progress, no end time, no logs, nil tags become an empty Hash |
| Spans.EnsureInProgress | lib/test/span.rb:101-105 | passes iff the span is in progress, SpanAlreadyFinished otherwise |
| Spans.SetOperationName | lib/test/span.rb:42-47 | TypeError for a non-String name (checked first, even on a finished span), then SpanAlreadyFinished, otherwise only the name changes |
| Spans.TagValue | lib/test/span.rb:53 | String, Integer, Float and Boolean values are kept; anything else becomes its `to_s` text |
| Spans.SetTag | lib/test/span.rb:49-55 | TypeError for a non-String key first, then SpanAlreadyFinished; otherwise the tag is set, other tags and fields unchanged |
| Spans.Log | lib/test/span.rb:71-77 | TypeError unless the event is a String or nil, then SpanAlreadyFinished; otherwise exactly one entry is appended |
| Spans.MarkFinished | lib/test/span.rb:79-87 | succeeds iff in progress; then the span is finished with the given end time, nothing else changed |
| Spans.SetBaggageItem | lib/test/span.rb:57-64 | TypeError unless the key is a String and the value a String or nil, then SpanAlreadyFinished; otherwise `value.to_s` (nil as "") is written to the context's Hash only |
| Spans.GetBaggageItem | lib/test/span.rb:66-69 | TypeError iff the key is not a String, allowed on a finished span, nil for a missing key |
| Spans.FinishedIsFrozen | lib/test/span.rb:42-87 | on a finished span each of the four record mutations (rename, tag, log, finish) fails, with SpanAlreadyFinished whenever its arguments are well typed; the refusal of `set_baggage_item` is stated by Spans.SetBaggageItem |
| Spans.Run | lib/test/span.rb:79-87 | across any sequence of mutations at most one finish succeeds; the span ends finished iff it started finished or that finish happened |
| ScopeStacks.NewStack | lib/test/scope_manager/scope_stack.rb:7-12 | a stack's store key is an identifier not drawn before |
| ScopeStacks.StacksAreDistinct | lib/test/scope_manager/scope_stack.rb:7-12 | two stacks never share a store key |
| ScopeStacks.Touch | lib/test/scope_manager/scope_stack.rb:32-34 | the store is created empty on first use and otherwise left alone; no other key changes |
| ScopeStacks.Push | lib/test/scope_manager/scope_stack.rb:14-16 | appends at the end of this stack's list only |
| ScopeStacks.Pop | lib/test/scope_manager/scope_stack.rb:18-20 | nil iff empty (and the list stays empty); otherwise the old list is the new list plus the returned last element |
| ScopeStacks.Peek | lib/test/scope_manager/scope_stack.rb:22-24 | the last element, left in place; nil iff empty |
| ScopeStacks.Snapshot | lib/test/scope_manager/scope_stack.rb:26-28 | nil iff the store was never created, otherwise a copy of the list |
| ScopeStacks.PushPop | lib/test/scope_manager/scope_stack.rb:14-24 | after a push, peek and pop return the pushed scope and pop restores the list |
| ScopeStacks.StacksAreIsolated | lib/test/scope_manager/scope_stack.rb:7-34 | push, pop and peek on one stack never change another stack's snapshot |
| ScopeStacks.PushAll | lib/test/scope_manager/scope_stack.rb:14-16 | pushing a sequence appends it in order |
| ScopeStacks.PushAllPopN | lib/test/scope_manager/scope_stack.rb:14-20 | LIFO: popping as often as pushed returns the pushed scopes in reverse and restores the list |
| ScopeStacks.PopNPopsSuffix | lib/test/scope_manager/scope_stack.rb:18-20 | popping a list ending in `xs` returns `xs` last-first and leaves what was below it |
| Heap.NewSpan | lib/test/span.rb:11-26 | Span.new allocates one in-progress span on the given context, with the given name, start time and tags (an empty Hash for nil), no end time and no logs, and changes nothing else; or raises TypeError with nothing allocated |
| Heap.Finish | lib/test/span.rb:79-87 | succeeds iff in progress: records the end time and appends the span once to `finished_spans`; else SpanAlreadyFinished with nothing changed; finish-once is kept |
| Heap.FinishTwiceRejected | lib/test/span.rb:79-87 | the second finish raises and `finished_spans` holds the span once |
| Carriers.Inject | lib/test/propagation/text_map_codec.rb:8-12 | writes the three ids (nil for a root's parent) and leaves every other key alone |
| Carriers.Extract | lib/test/propagation/text_map_codec.rb:14-24 | nil unless trace and span id are truthy; TypeError for a non-String id; otherwise a context with those ids and a new empty baggage Hash |
| Carriers.RoundTrip | lib/test/propagation/text_map_codec.rb:8-24 | extract after inject with the same keys gives back all three ids, with empty baggage |
| Carriers.NoRoundTripAcrossKeySets | lib/test/propagation/rack_codec.rb:16-32 | when extract reads keys inject did not write, nothing is extracted |
| TextMapCodec.Inject | lib/test/propagation/text_map_codec.rb:8-12 | writes `trace_id`, `span_id`, `parent_span_id` and touches no other key |
| TextMapCodec.Extract | lib/test/propagation/text_map_codec.rb:14-24 | nil without both ids (so for an empty carrier); an absent parent reads as nil; empty baggage; TypeError for non-String ids |
| TextMapCodec.RoundTrip | lib/test/propagation/text_map_codec.rb:8-24 | extract after inject gives back trace id, span id and parent span id |
| RackCodec.Inject | lib/test/propagation/rack_codec.rb:16-20 | writes `X-Trace-Id`, `X-Span-Id`, `X-Parent-Span-Id` and nothing else |
| RackCodec.Extract | lib/test/propagation/rack_codec.rb:22-32 | reads only the `HTTP_X_*` keys; nil without both ids or for an empty carrier; empty baggage |
| RackCodec.KeySetsDisjoint | lib/test/propagation/rack_codec.rb:5-12 | the header names and the Rack environment names are disjoint |
| RackCodec.ExtractFromRackEnv | lib/test/propagation/rack_codec.rb:22-32 | from a Rack environment holding the `HTTP_X_*` entries all three ids are preserved |
| RackCodec.InjectThenExtractFindsNothing | lib/test/propagation/rack_codec.rb:16-32 | extracting from a carrier only inject filled gives nil |
| ScopeManagers.NewManager | lib/test/scope_manager/scope_stack.rb:7-12 | a new manager's stack key was never drawn before |
| ScopeManagers.Active | spec/test/scope_manager_spec.rb:30-45 | the top scope, nil iff the stack is empty, and the read removes nothing |
| ScopeManagers.Activate | spec/test/scope_manager_spec.rb:10-27 | the span is active afterwards; re-activating the active span returns its scope and pushes nothing; otherwise a new open scope is pushed and returned |
| ScopeManagers.ActivateKeepsInvariants | lib/test/scope_manager/scope_stack.rb:7-34 | activation changes only its own stack's list and keeps heap validity and finish-once |
| ScopeManagers.ActivateIsIdempotent | spec/test/scope_manager_spec.rb:22-27 | activating the active span again gives the same scope; from an empty stack its size stays 1 |
| ScopeManagers.ActiveIsStable | spec/test/scope_manager_spec.rb:40-44 | reading `active` twice gives the same scope and leaves the list unchanged |
| ScopeManagers.ActiveAfterActivate | spec/test/scope_manager_spec.rb:33-38 | the scope just activated is what `active` returns |
| ScopeManagers.ActivateAll | spec/test/scope_manager_spec.rb:47-55 | one scope per span activated; spans untouched |
| ScopeManagers.ActivateAllWrapsSpans | spec/test/scope_manager_spec.rb:47-55 | existing scopes are never altered and the i-th returned scope wraps the i-th span |
| ScopeManagers.ActivateAllInOrder | spec/test/scope_manager_spec.rb:47-55 | activating spans that each differ from the one before, the stack ends with their scopes in activation order |
| ScopeManagers.FirstActivationPushes | spec/test/scope_manager_spec.rb:47-55 | the first activation of a span that is not active pushes one new scope, after which a different next span is not active |
| ScopeManagers.ActiveAfterActivateAll | spec/test/scope_manager_spec.rb:33-38 | after such a run, `active` is the last scope activated |
| ScopeManagers.Close | spec/test/scope_spec.rb:31-62 | non-active RuntimeError unless the scope is on top; otherwise popped, marked closed, and its span finished iff `finish_on_close` (a second finish raising); that finish stamps end time `now` and appends the span to `finished_spans`, and nothing else in the world changes |
| ScopeManagers.PopClosed | spec/test/scope_spec.rb:39-43 | closing the top scope removes it from the end of its own stack only and marks it closed, leaving spans and the tracer alone |
| ScopeManagers.ActivateNested | spec/test/scope_spec.rb:31-37 | activating two different spans pushes their two new scopes in order |
| ScopeManagers.OutOfOrderCloseRejected | spec/test/scope_spec.rb:31-37 | closing the outer scope under an open inner one raises and leaves the stack unchanged |
| ScopeManagers.InOrderCloseRestores | spec/test/scope_spec.rb:39-43 | closing inner then outer succeeds, marks both closed and restores the stack |
| Tracing.RegisterInjector | lib/test/tracer.rb:43-49 | NullError for a nil/false format, then ArgumentError for an object without `inject`; otherwise this format's entry is replaced and no other entry changes |
| Tracing.RegisterExtractor | lib/test/tracer.rb:51-57 | the same rules for `extract` |
| Tracing.RegisterCodec | lib/test/tracer.rb:59-63 | succeeds iff both registrations do, then the object is both injector and extractor; an object lacking `extract` stays registered as injector |
| Tracing.LaterRegistrationWins | lib/test/tracer.rb:43-63 | registering a format again replaces the earlier object |
| Tracing.Init | lib/test/tracer.rb:25-41 | empty lists, the text-map and Rack codecs registered under their formats, the default unwrapper, an empty stack, finish-once |
| Tracing.Unwrap | lib/test/tracer.rb:212-218 | nil and native contexts pass through; anything else goes to the unwrapper, nil without one; the default unwrapper answers `wrapped` or nil |
| Tracing.Inject | lib/test/tracer.rb:136-148 | NullError on a nil format before the carrier is looked at; no-op for a nil carrier or an unregistered format; otherwise the registered injector writes the unwrapped context |
| Tracing.Extract | lib/test/tracer.rb:151-162 | NullError for a nil format or carrier; nil for an unregistered format; otherwise the extractor's answer, only the store changing |
| Tracing.TextMapRoundTripThroughTracer | spec/test/tracer_spec.rb:359-399 | through a new tracer, text-map inject then extract gives back the three ids with empty baggage |
| Tracing.RackDoesNotRoundTripThroughTracer | lib/test/tracer.rb:136-162 | through a new tracer, Rack inject then extract on the same carrier gives nil |
| Tracing.ContextFromChildOf | lib/test/tracer.rb:186-189 | nil for nil; a span's or foreign span's `context`; anything else as given |
| Tracing.FirstChildOf | lib/test/tracer.rb:191-199 | the index of the first CHILD_OF reference, none iff there is none |
| Tracing.ContextFromReferences | lib/test/tracer.rb:191-199 | nil for nil or empty; the first CHILD_OF reference's context, or the first reference's without one |
| Tracing.ContextFromActiveScope | lib/test/tracer.rb:205-210 | nil when ignoring (the stack is not read) or without an active scope; otherwise the active span's context |
| Tracing.DeriveContext | lib/test/tracer.rb:178-183 | a fresh root for nil, a child for a native context, NoMethodError for anything else |
| Tracing.ResolveParent | lib/test/tracer.rb:173-176 | the first non-nil of the `child_of` context, the references' context and the active scope's context, in that order; the active scope is read (and the stack store touched) only when both earlier ones are nil and the active scope is not ignored |
| Tracing.PrepareSpanContext | lib/test/tracer.rb:172-184 | with p the unwrapped first non-nil parent source: a child of p when p is a native context, a new root when p is nil, NoMethodError otherwise; only the store (and the lazily created stack store) changes, and the span id is fresh |
| Tracing.CtxArgumentIsParent | spec/test/tracer_spec.rb:89-95 | a native SpanContext passed as `child_of` is the parent, and the scope stack is not read |
| Tracing.ChildOfArgumentWins | lib/test/tracer.rb:172-176 | once `child_of` resolves, references and `ignore_active_scope` are irrelevant and the stack is not read |
| Tracing.ReferencesBeforeActiveScope | lib/test/tracer.rb:172-176 | with no `child_of`, resolving references decide whatever `ignore_active_scope` says |
| Tracing.ChildOfReferencePreferred | lib/test/tracer.rb:191-199 | the first CHILD_OF reference's context becomes the parent |
| Tracing.ActiveSpanIsParent | spec/test/tracer_spec.rb:115-118 | with nothing else given, the new context is a child of the active span's context |
| Tracing.IgnoredActiveScopeGivesRoot | lib/test/tracer.rb:205-210 | `ignore_active_scope` with nothing else gives a root even while a scope is active |
| Tracing.NoParentGivesRoot | lib/test/tracer.rb:179-183 | nothing resolves and no scope is active: a root |
| Tracing.SpanArgumentIsParent | lib/test/tracer.rb:186-189 | a span passed as `child_of` is the parent through its context |
| Tracing.WrappedParentIsUnwrapped | lib/test/wrapped/default_extractor.rb:4-6 | a wrapper span around a native span (answering `wrapped` with the span and `context` with a wrapper of its context) gives the native context as parent with the default unwrapper, and a root with none |
| Tracing.RecordSpan | lib/test/tracer.rb:110-116 | on a prepared context: Ok iff the name is a String; then one new in-progress span with the given name, start time, tags and that context is appended to `spans`, and nothing else changes, the baggage store included; on TypeError the world is unchanged |
| Tracing.StartSpan | lib/test/tracer.rb:96-126 | Ok iff the name is a String and the context prepared; then exactly one new in-progress span with the given name, start time, tags and prepared context is appended to `spans`; no scope stack changes, and the baggage store is as the context preparation left it; on error nothing is recorded |
| Tracing.StartSpanOnNewTracer | spec/test/tracer_spec.rb:129-167 | on a new tracer: one span in `spans`, none finished, the stack empty with no active scope, the span a root |
| Tracing.StartSpanAsWritten | lib/test/tracer.rb:110-115 | as written every call raises and records nothing: ArgumentError once the context is prepared |
| Tracing.StartSpanAsWrittenAlwaysRaises | lib/test/tracer.rb:110-115 | `start_span("op")` on a new tracer raises as written and succeeds in the corrected model |
| Tracing.StartSpanBlock | lib/test/tracer.rb:117-125 | the span is finished on every exit path; the result is the block's value or exception, or SpanAlreadyFinished when the block had finished it; when the block left the span open, the world is the block's with only that finish applied (end time, `finished_spans`) |
| Tracing.StartSpanBlockFinishesSpan | spec/test/tracer_spec.rb:144-150 | a value-returning block: its value is returned and the span is in `spans` and once in `finished_spans` |
| Tracing.StartActiveSpan | lib/test/tracer.rb:74-82 | succeeds iff `start_span` does; then the spans, store and tracer lists are exactly what `start_span` leaves (so the span has its name, tags, start time and parent), and one new open scope for the new span is pushed on the tracer's stack and returned |
| Tracing.ActiveSpan | lib/test/tracer.rb:128-133 | the active scope's span, nil iff no scope is active |
| Tracing.StartedSpanIsActive | spec/test/tracer_spec.rb:207-213 | after `start_active_span` the new span is the active span |
| Tracing.RunScopeBlock | lib/test/tracer.rb:84-89 | after the block the scope is closed: if on top it is popped and marked closed, its span finished iff `finish_on_close`, and the block's result (value or error) is returned when `finish_on_close` is off or the span was still in progress, while a span the block had finished makes the closing `finish` raise; otherwise the non-active RuntimeError; beyond the pop, the closed scope and that finish (end time `now`, appended to `finished_spans`) the world is the block's |
| Tracing.StartActiveSpanBlock | lib/test/tracer.rb:66-93 | a failed start is returned as is; otherwise the new scope (the next scope number, with the requested `finish_on_close`) is closed after the block on every exit path, with the outcome and frame RunScopeBlock states: the block's result unless closing raised |
| Tracing.DefaultStartSucceeds | lib/test/tracer.rb:172-184 | with no `child_of` or references, `start_span` succeeds for any String name |
| Tracing.ActiveSpanBlockRestoresStack | spec/test/tracer_spec.rb:215-224 | a value-returning block: its value is returned, the stack is as before, the scope closed and its span finished |
| Tracing.ActiveStartIsChildOfActive | spec/test/tracer_spec.rb:207-213 | `start_active_span` pushes one scope for one new span whose context is a child of the active span's, or a root |
| Tracing.StepsNest | spec/test/tracer_spec.rb:226-235 | two such steps leave the stack ending `[parent, child]`, the child's span a child of the parent's |
| Tracing.NestedActiveSpans | spec/test/tracer_spec.rb:226-235 | nested `start_active_span` calls: stack gains `[parent, child]`, child's parent span id is the parent's span id, same trace |
| Tracing.Clear | lib/test/tracer.rb:164-168 | empties `spans` and `finished_spans`; spans, scopes, stacks, store and registry unchanged |
| Tracing.ClearForgetsOnlyTheLists | spec/test/tracer_spec.rb:433-447 | after `clear` a finished span still refuses `finish`, and finishing an open one lists it alone |

## Left out

- Identifier randomness: `SecureRandom.uuid` (lib/test/id_provider.rb) is replaced by a counter whose n-th identifier is the decimal text of n. The supply never hands out the same identifier twice. That says nothing about identifiers it did not issue.
- Extracted and caller-supplied identifiers: ids read from a carrier or passed to `SpanContext.new` do not come from the supply and may equal ids it issues later (SpanContexts.ForeignParentMayShareChildSpanId exhibits one). Random UUIDs make such a clash practically impossible in the original; a counter does not, so SpanContexts.ChildSpanIdIsNew and SpanContexts.ChildNeverEqualsParent are stated only for parents whose ids the supply issued.
- Thread-local storage: `Thread.current` becomes one map from store key to scope list, for a single execution context. Per-thread isolation is concurrency and is not modelled.
- Logging: the warnings for a missing injector or extractor, and the logger, are silent.
- Clocks and printing: times are opaque numbers, and `Time.now` defaults are explicit arguments. `to_s` of spans and contexts, and the extra `**fields` of a log entry, are not modelled.
- Floats: Float tag values are opaque text, with no numeric behaviour.
- Ruby reflection: `respond_to?`, `is_a?` and the TypeCheck helpers become sum types (`Handle`, `Codec`, `Unwrapper`) and an error enum.
- Types Dafny already checks: the type checks on `tracer:`, `start_time:`, `end_time:`, `timestamp:` and a Hash `tags:` hold by construction and are not modelled as errors.
- Scope.rb and scope_manager.rb are not part of this model. `ScopeManager#activate`/`active` and `Scope#close` follow the behaviour their specs pin. Close checks that the scope is on top, pops it, marks it closed, then finishes the span; this order was chosen because the source that fixes it is absent.
- Custom unwrappers: only nil and the default `DefaultExtractor` are modelled for `wrapped_span_context_extractor`. `wrapped_span_extractor` is set by the constructor but never used by the tracer.
- Foreign objects are taken not to answer `trace_id`. A non-native parent left after unwrapping raises NoMethodError in `SpanContext.child_of`.
- Nil elements in `references`: the elements are always Reference values, so `references.none?` is modelled as emptiness.
- Span references: the `references:` list is not stored on the span. Only its effect on parent selection is modelled.
- Tracing.Inject: a user injector is a total function returning the carrier it wrote, rather than a mutation of the caller's Hash. The built-in codecs return the written carrier the same way.
- User codecs are total functions, so an exception raised inside a user injector or extractor is not modelled.
- Multiple tracers: one tracer per world. Distinct stacks never sharing a store key is proved at the stack level.
- Format constants: FORMAT_TEXT_MAP and FORMAT_RACK belong to the OpenTracing gem and are not part of this model. They are two distinct truthy values here.
- Tracing.StartSpanBlock and Tracing.StartActiveSpanBlock: the block is any function that keeps the heap valid and finish-once. It is not run against arbitrary Ruby code.
- Tracing.ActiveSpan: `active_span` is inherited from the OpenTracing gem. It is modelled from the behaviour tracer.rb:128-133 describes.
- SpanContexts.Equal: the `self.class == rhs.class` test of `==` (lib/test/span_context.rb:48) is not modelled, because the model only ever compares two SpanContext values.
- Spans.New and Spans.SetTag: `Span.new` keeps the caller's `tags:` Hash object itself (lib/test/span.rb:21), and `set_tag` writes into that object (lib/test/span.rb:53), so the caller sees every later tag. The model uses value maps: the caller's Hash is in effect copied, not shared. Baggage Hash sharing, by contrast, is modelled.

## Findings

| source | as written | input that shows it | evidently intended | confidence | as-written member | corrected member |
|---|---|---|---|---|---|---|
| lib/test/tracer.rb:110-115 | `Span.new` is called with a `references:` keyword, but `Span#initialize` (lib/test/span.rb:11) declares no such keyword and no `**` catch-all, so Ruby raises ArgumentError after the context has been prepared and before any span is recorded | `start_span("op")` on a new tracer | the span is created and recorded (the specs read `span.references` back) | high; not executed | Tracing.StartSpanAsWritten | Tracing.StartSpan |

=== FILE: carriers.dfy ===
/** The logic both built-in codecs share: inject copies the three ids of a
    context into a carrier under three keys; extract reads three keys back
    and builds a context only when the trace id and span id are present. */
module Carriers {
  import opened Values
  import opened SpanContexts

  /** The carrier keys for the trace id, span id and parent span id. */
  datatype KeySet = KeySet(traceId: string, spanId: string, parentSpanId: string) {
    function Keys(): set<string> { {traceId, spanId, parentSpanId} }
    predicate Distinct() { traceId != spanId && spanId != parentSpanId && traceId != parentSpanId }
  }

  /** The carrier value of an optional parent id: nil for a root. */
  function ParentValue(c: Ctx): (v: Value)
    ensures c.parentSpanId.None? <==> v == Nil
    ensures c.parentSpanId.Some? ==> v == Str(c.parentSpanId.value)
  {
    match c.parentSpanId
    case None => Nil
    case Some(p) => Str(p)
  }

  /** `inject`: writes the three ids (nil for a missing parent) and leaves
      every other key of the carrier alone. */
  function Inject(keys: KeySet, c: Ctx, carrier: Carrier): (r: Carrier)
    requires keys.Distinct()
    ensures r.Keys == carrier.Keys + keys.Keys()
    ensures r[keys.traceId] == Str(c.traceId)
    ensures r[keys.spanId] == Str(c.spanId)
    ensures r[keys.parentSpanId] == ParentValue(c)
    ensures forall k :: k in carrier && k !in keys.Keys() ==> r[k] == carrier[k]
  {
    carrier[keys.traceId := Str(c.traceId)][keys.spanId := Str(c.spanId)][keys.parentSpanId := ParentValue(c)]
  }

  /** `extract`: when both the trace id and the span id read truthy, builds a
      context from the three values (raising TypeError when one is not a
      String, or a present parent is not a String or nil) with a new empty
      baggage Hash; otherwise nil. */
  function Extract(keys: KeySet, st: Store, carrier: Carrier): (r: (Store, Result<Option<Ctx>>))
    ensures var t, s, p := Lookup(carrier, keys.traceId), Lookup(carrier, keys.spanId),
                           Lookup(carrier, keys.parentSpanId);
      && (!(Truthy(t) && Truthy(s)) ==> r == (st, Ok(None)))
      && (Truthy(t) && Truthy(s) && !(t.Str? && s.Str? && (p.Str? || p.Nil?)) ==> r == (st, Err(TypeError)))
      && (r.1.Ok? && r.1.value.Some? <==> t.Str? && s.Str? && (p.Str? || p.Nil?))
      && (r.1.Ok? && r.1.value.Some? ==>
            var c := r.1.value.value;
            && c.traceId == t.s && c.spanId == s.s
            && (p.Nil? <==> c.parentSpanId.None?)
            && (p.Str? ==> c.parentSpanId == Some(p.s))
            && c.bag == |st.bags| && r.0.bags == st.bags + [map[]]
            && r.0.nextId == st.nextId
            && Owns(r.0, c) && BaggageOf(r.0, c) == map[])
  {
    var t := Lookup(carrier, keys.traceId);
    var s := Lookup(carrier, keys.spanId);
    var p := Lookup(carrier, keys.parentSpanId);
    if Truthy(t) && Truthy(s) then
      var (st', made) := New(st, t, s, p, DefaultBaggage);
      match made
      case Ok(c) => (st', Ok(Some(c)))
      case Err(e) => (st', Err(e))
    else
      (st, Ok(None))
  }

  /** Extracting with the keys an inject wrote gives back the three ids, with
      fresh empty baggage: baggage is not propagated. */
  lemma RoundTrip(keys: KeySet, c: Ctx, carrier: Carrier, st: Store)
    requires keys.Distinct()
    ensures var r := Extract(keys, st, Inject(keys, c, carrier));
      && r.1.Ok? && r.1.value.Some?
      && r.1.value.value.traceId == c.traceId
      && r.1.value.value.spanId == c.spanId
      && r.1.value.value.parentSpanId == c.parentSpanId
      && Owns(r.0, r.1.value.value) && BaggageOf(r.0, r.1.value.value) == map[]
  {
  }

  /** When the extract keys were not written by inject, extracting from a
      carrier filled only by inject finds nothing. */
  lemma NoRoundTripAcrossKeySets(injectKeys: KeySet, extractKeys: KeySet, c: Ctx, st: Store)
    requires injectKeys.Distinct()
    requires extractKeys.traceId !in injectKeys.Keys()
    ensures Extract(extractKeys, st, Inject(injectKeys, c, map[])) == (st, Ok(None))
  {
  }
}

=== FILE: heap.dfy ===
/** The objects the tracer works on. Spans and scopes have identity (a scope
    stack holds particular scope objects, activation compares span objects),
    so they live in tables indexed by reference; baggage Hashes live in the
    context store. One tracer and one execution context are modelled. */
module Heap {
  import opened Values
  import opened SpanContexts
  import opened Spans
  import opened ScopeStacks

  /** A reference to a Span object. */
  type SpanRef = nat

  /** A Scope: the span it activates, the stack it was pushed on, whether
      closing it finishes the span, and whether it has been closed. */
  datatype Scope = Scope(span: SpanRef, stack: ScopeStack, finishOnClose: bool, closed: bool)

  datatype ScopeManager = ScopeManager(stack: ScopeStack)

  /** What a caller can pass where a span or span context is expected: nil,
      a Span of this tracer, a native SpanContext, or a foreign object that
      may answer `context` (a foreign span) and may answer `wrapped` (a
      wrapper around a native object). */
  datatype Handle =
    | NilH
    | SpanH(span: SpanRef)
    | CtxH(ctx: Ctx)
    | Foreign(context: Option<Handle>, wrapped: Option<Handle>)

  datatype RefKind = ChildOfKind | FollowsFromKind

  /** An OpenTracing reference: its type and the context it points at. */
  datatype Reference = Reference(kind: RefKind, context: Handle)

  /** An object registered as injector and/or extractor: one of the two
      built-in codecs, or a caller-supplied object that may or may not answer
      `inject` and `extract`. */
  datatype Codec =
    | TextMap
    | Rack
    | UserCodec(injectOp: Option<(Handle, Carrier) -> Carrier>, extractOp: Option<Carrier -> Handle>)

  /** The tracer's `wrapped_span_context_extractor`: unset (nil) or the
      default one, which answers a wrapper's `wrapped` object. */
  datatype Unwrapper = NoUnwrapper | DefaultUnwrapper

  datatype TracerState = TracerState(
    spans: seq<SpanRef>,
    finished: seq<SpanRef>,
    manager: ScopeManager,
    injectors: map<Value, Codec>,
    extractors: map<Value, Codec>,
    contextUnwrapper: Unwrapper,
    spanUnwrapper: Unwrapper)

  datatype World = World(
    store: Store,
    allSpans: seq<Span>,
    allScopes: seq<Scope>,
    locals: Locals,
    tracer: TracerState)

  /** Every reference names an allocated object. */
  ghost predicate Valid(w: World) {
    && (forall i :: 0 <= i < |w.allSpans| ==> Owns(w.store, w.allSpans[i].ctx))
    && (forall i :: 0 <= i < |w.allScopes| ==> w.allScopes[i].span < |w.allSpans|)
    && (forall k, j :: k in w.locals && 0 <= j < |w.locals[k]| ==> w.locals[k][j] < |w.allScopes|)
    && (forall j :: 0 <= j < |w.tracer.spans| ==> w.tracer.spans[j] < |w.allSpans|)
    && (forall j :: 0 <= j < |w.tracer.finished| ==> w.tracer.finished[j] < |w.allSpans|)
  }

  ghost predicate ValidHandle(w: World, h: Handle) {
    match h
    case NilH => true
    case SpanH(r) => r < |w.allSpans|
    case CtxH(c) => Owns(w.store, c)
    case Foreign(c, wr) =>
      (c.Some? ==> ValidHandle(w, c.value)) && (wr.Some? ==> ValidHandle(w, wr.value))
  }

  /** The finish-once invariant: `finished_spans` holds no span twice, and
      only finished spans. */
  ghost predicate FinishedOnce(w: World) {
    && Valid(w)
    && (forall i, j :: 0 <= i < j < |w.tracer.finished| ==> w.tracer.finished[i] != w.tracer.finished[j])
    && (forall i :: 0 <= i < |w.tracer.finished| ==> w.allSpans[w.tracer.finished[i]].Finished())
  }

  /** The heap only grows: objects are never deallocated and no list of
      the context store shrinks. */
  ghost predicate Grows(w: World, w': World) {
    && |w'.allSpans| >= |w.allSpans|
    && |w'.allScopes| >= |w.allScopes|
    && |w'.store.bags| >= |w.store.bags|
  }

  lemma HandleStaysValid(w: World, w': World, h: Handle)
    requires ValidHandle(w, h) && Grows(w, w')
    ensures ValidHandle(w', h)
  {
    match h
    case NilH =>
    case SpanH(r) =>
    case CtxH(c) =>
    case Foreign(c, wr) =>
      if c.Some? { HandleStaysValid(w, w', c.value); }
      if wr.Some? { HandleStaysValid(w, w', wr.value); }
  }

  /** Span.new on an existing context: allocates an in-progress span (the
      tracer's lists are not touched; `start_span` adds it to `spans`). */
  function NewSpan(w: World, ctx: Ctx, name: Value, startTime: Time, tags: Option<map<Value, Value>>)
    : (r: (World, Result<SpanRef>))
    requires Valid(w) && Owns(w.store, ctx)
    ensures Valid(r.0) && Grows(w, r.0)
    ensures r.1.Err? <==> !name.Str?
    ensures r.1.Err? ==> r.1.error == TypeError && r.0 == w
    ensures r.1.Ok? ==>
      && r.1.value == |w.allSpans|
      && r.0 == w.(allSpans := r.0.allSpans)
      && r.0.allSpans[..|w.allSpans|] == w.allSpans
      && |r.0.allSpans| == |w.allSpans| + 1
      && r.0.allSpans[r.1.value].inProgress
      && r.0.allSpans[r.1.value].ctx == ctx
      && r.0.allSpans[r.1.value].operationName == name.s
      && r.0.allSpans[r.1.value].startTime == startTime
      && r.0.allSpans[r.1.value].endTime == None
      && r.0.allSpans[r.1.value].logs == []
      && r.0.allSpans[r.1.value].tags == (if tags.Some? then tags.value else map[])
    ensures FinishedOnce(w) ==> FinishedOnce(r.0)
  {
    match Spans.New(ctx, name, startTime, tags)
    case Err(e) => (w, Err(e))
    case Ok(s) =>
      var w' := w.(allSpans := w.allSpans + [s]);
      assert w'.allSpans[..|w.allSpans|] == w.allSpans;
      (w', Ok(|w.allSpans|))
  }

  /** Span#finish: rejected with SpanAlreadyFinished (nothing changes) on a
      finished span; otherwise records the end time, leaves the in-progress
      state and appends the span to the tracer's `finished_spans` once. */
  function Finish(w: World, s: SpanRef, endTime: Time): (r: (World, Result<SpanRef>))
    requires Valid(w) && s < |w.allSpans|
    ensures Valid(r.0) && Grows(w, r.0)
    ensures r.1.Ok? <==> w.allSpans[s].inProgress
    ensures r.1.Err? ==> r.1.error == SpanAlreadyFinished && r.0 == w
    ensures r.1.Ok? ==>
      && r.1.value == s
      && r.0.tracer.finished == w.tracer.finished + [s]
      && r.0.allSpans[s] == w.allSpans[s].(inProgress := false, endTime := Some(endTime))
      && r.0 == w.(allSpans := w.allSpans[s := r.0.allSpans[s]],
                   tracer := w.tracer.(finished := w.tracer.finished + [s]))
    ensures |r.0.allSpans| == |w.allSpans| && r.0.allSpans[s].Finished()
    ensures FinishedOnce(w) ==> FinishedOnce(r.0)
  {
    match MarkFinished(w.allSpans[s], endTime)
    case Err(e) => (w, Err(e))
    case Ok(done) =>
      var w' := w.(allSpans := w.allSpans[s := done],
                   tracer := w.tracer.(finished := w.tracer.finished + [s]));
      (w', Ok(s))
  }

  /** Finishing twice: the second call raises and `finished_spans` keeps the
      span once. */
  lemma FinishTwiceRejected(w: World, s: SpanRef, t1: Time, t2: Time)
    requires Valid(w) && s < |w.allSpans| && w.allSpans[s].inProgress
    ensures var (w1, r1) := Finish(w, s, t1);
      var (w2, r2) := Finish(w1, s, t2);
      && r1 == Ok(s) && r2 == Err(SpanAlreadyFinished)
      && w2.tracer.finished == w.tracer.finished + [s]
  {
  }
}

=== FILE: ids.dfy ===
/** The fresh-identifier supply. The original draws random UUIDs; here the
    supply is a counter and the n-th identifier is the decimal text of n, so
    the supply never hands out an identifier twice. Identifiers that did not
    come from the supply (extracted, or given by the caller) may still equal
    one it issues. */
module Ids {
  import opened Values

  /** The identifier the supply hands out when its counter stands at `n`. */
  function IdText(n: nat): (id: string)
    ensures |id| > 0
  {
    Decimal(n)
  }

  /** Two draws at different counter positions give different identifiers. */
  lemma IdTextInjective(m: nat, n: nat)
    ensures IdText(m) == IdText(n) <==> m == n
  {
    DecimalInjective(m, n);
  }

  /** `s` is an identifier the supply handed out before its counter reached `bound`. */
  ghost predicate IssuedBefore(s: string, bound: nat) {
    exists k: nat :: k < bound && IdText(k) == s
  }

  /** The identifier drawn at `next` differs from every identifier drawn earlier. */
  lemma {:induction false} FreshIdIsNew(s: string, next: nat)
    requires IssuedBefore(s, next)
    ensures IdText(next) != s
  {
    var k: nat :| k < next && IdText(k) == s;
    IdTextInjective(k, next);
  }

  /** The identifier drawn at `n` was not issued before `n`, and is issued from then on. */
  lemma NotIssuedYet(n: nat, bound: nat)
    requires n >= bound
    ensures !IssuedBefore(IdText(n), bound)
    ensures IssuedBefore(IdText(n), n + 1)
  {
    if IssuedBefore(IdText(n), bound) {
      FreshIdIsNew(IdText(n), n);
    }
  }
}

=== FILE: rack_codec.dfy ===
/** The Rack codec: inject writes HTTP header names (`X-Trace-Id`, ...),
    extract reads the names Rack gives those headers in its environment
    (`HTTP_X_TRACE_ID`, ...). The two key sets are disjoint, so the codec
    does not round-trip on one carrier. */
module RackCodec {
  import opened Values
  import opened SpanContexts
  import Carriers

  const TraceIdHeader := "X-Trace-Id"
  const SpanIdHeader := "X-Span-Id"
  const ParentSpanIdHeader := "X-Parent-Span-Id"

  const RackTraceId := "HTTP_X_TRACE_ID"
  const RackSpanId := "HTTP_X_SPAN_ID"
  const RackParentSpanId := "HTTP_X_PARENT_SPAN_ID"

  const HeaderKeys := Carriers.KeySet(TraceIdHeader, SpanIdHeader, ParentSpanIdHeader)
  const RackKeys := Carriers.KeySet(RackTraceId, RackSpanId, RackParentSpanId)

  function Inject(c: Ctx, carrier: Carrier): (r: Carrier)
    ensures r.Keys == carrier.Keys + {TraceIdHeader, SpanIdHeader, ParentSpanIdHeader}
    ensures r[TraceIdHeader] == Str(c.traceId) && r[SpanIdHeader] == Str(c.spanId)
    ensures r[ParentSpanIdHeader] == (if c.parentSpanId.Some? then Str(c.parentSpanId.value) else Nil)
    ensures forall k :: k in carrier && k !in {TraceIdHeader, SpanIdHeader, ParentSpanIdHeader} ==> r[k] == carrier[k]
  {
    Carriers.Inject(HeaderKeys, c, carrier)
  }

  function Extract(st: Store, carrier: Carrier): (r: (Store, Result<Option<Ctx>>))
    ensures !(Truthy(Lookup(carrier, RackTraceId)) && Truthy(Lookup(carrier, RackSpanId))) ==> r == (st, Ok(None))
    ensures carrier == map[] ==> r == (st, Ok(None))
    ensures r.1.Ok? && r.1.value.Some? ==>
      && Str(r.1.value.value.traceId) == Lookup(carrier, RackTraceId)
      && Str(r.1.value.value.spanId) == Lookup(carrier, RackSpanId)
      && (RackParentSpanId !in carrier ==> r.1.value.value.parentSpanId.None?)
      && Owns(r.0, r.1.value.value) && BaggageOf(r.0, r.1.value.value) == map[]
    ensures r == Carriers.Extract(RackKeys, st, carrier)
  {
    Carriers.Extract(RackKeys, st, carrier)
  }

  /** Inject writes none of the keys extract reads. */
  lemma KeySetsDisjoint()
    ensures HeaderKeys.Keys() !! RackKeys.Keys()
  {
  }

  /** From a Rack environment holding the `HTTP_X_*` entries, extract
      preserves all three ids; a missing parent reads as nil. */
  lemma ExtractFromRackEnv(c: Ctx, env: Carrier, st: Store)
    ensures var r := Extract(st, Carriers.Inject(RackKeys, c, env));
      && r.1.Ok? && r.1.value.Some?
      && r.1.value.value.traceId == c.traceId
      && r.1.value.value.spanId == c.spanId
      && r.1.value.value.parentSpanId == c.parentSpanId
  {
    Carriers.RoundTrip(RackKeys, c, env, st);
  }

  /** Extracting from a carrier that only `inject` filled finds nothing. */
  lemma InjectThenExtractFindsNothing(c: Ctx, st: Store)
    ensures Extract(st, Inject(c, map[])) == (st, Ok(None))
  {
    Carriers.NoRoundTripAcrossKeySets(HeaderKeys, RackKeys, c, st);
  }
}

=== FILE: scope_manager.dfy ===
/** ScopeManager and Scope: activation pushes a new scope unless the span is
    already the active one, `active` reads the top of the stack, and a scope
    may only be closed while it is the top of its stack; closing pops it,
    marks it closed and finishes its span when `finish_on_close` is set. */
module ScopeManagers {
  import opened Values
  import opened Ids
  import opened SpanContexts
  import opened Spans
  import opened ScopeStacks
  import opened Heap

  /** ScopeManager.new: a manager over a new stack with its own store key. */
  function NewManager(w: World): (r: (World, ScopeManager))
    ensures r.0 == w.(store := Store(r.0.store.nextId, w.store.bags))
    ensures r.0.store.nextId > w.store.nextId
    ensures !IssuedBefore(r.1.stack.key, w.store.nextId)
  {
    var (next, stack) := NewStack(w.store.nextId);
    (w.(store := Store(next, w.store.bags)), ScopeManager(stack))
  }

  /** The span is the one the manager's top scope wraps. */
  predicate IsActive(w: World, m: ScopeManager, span: SpanRef) {
    var c := Contents(w.locals, m.stack);
    |c| > 0 && c[|c| - 1] < |w.allScopes| && w.allScopes[c[|c| - 1]].span == span
  }

  /** The scope is the top of its own stack. */
  predicate OnTop(w: World, s: ScopeRef)
    requires s < |w.allScopes|
  {
    var c := Contents(w.locals, w.allScopes[s].stack);
    |c| > 0 && c[|c| - 1] == s
  }

  /** Locals changed only in the list stored under `key`. */
  ghost predicate OnlyKeyChanged(l: Locals, l': Locals, key: string) {
    && key in l'
    && (forall k :: k in l && k != key ==> k in l' && l'[k] == l[k])
    && l'.Keys == l.Keys + {key}
  }

  lemma PopKeepsValid(w: World, s: ScopeStack, l: Locals)
    requires Valid(w) && l == Pop(w.locals, s).0
    ensures Valid(w.(locals := l))
  {
    var c := Contents(w.locals, s);
    if |c| > 0 {
      assert l[s.key] == c[..|c| - 1];
    }
  }

  /** ScopeManager#active: the top scope, left in place (nil when empty). */
  function Active(w: World, m: ScopeManager): (r: (World, Option<ScopeRef>))
    ensures Valid(w) ==> Valid(r.0)
    ensures r.0 == w.(locals := Touch(w.locals, m.stack))
    ensures Contents(r.0.locals, m.stack) == Contents(w.locals, m.stack)
    ensures r.1.None? <==> Contents(w.locals, m.stack) == []
    ensures r.1.Some? ==>
      var c := Contents(w.locals, m.stack);
      r.1.value == c[|c| - 1] && (Valid(w) ==> r.1.value < |w.allScopes|)
  {
    var (l, top) := Peek(w.locals, m.stack);
    (w.(locals := l), top)
  }

  /** ScopeManager#activate: when the span is already the active one, the
      active scope is returned and nothing is pushed; otherwise a new open
      scope for the span is pushed and returned. Either way the returned
      scope is then the active one, and existing scope objects are left as
      they are. */
  function Activate(w: World, m: ScopeManager, span: SpanRef, finishOnClose: bool): (r: (World, ScopeRef))
    ensures r.0.allSpans == w.allSpans && r.0.tracer == w.tracer && r.0.store == w.store
    ensures r.1 < |r.0.allScopes| && r.0.allScopes[r.1].span == span
    ensures |r.0.allScopes| >= |w.allScopes| && r.0.allScopes[..|w.allScopes|] == w.allScopes
    ensures IsActive(r.0, m, span)
    ensures var c := Contents(w.locals, m.stack);
      IsActive(w, m, span) ==>
        r.1 == c[|c| - 1] && Contents(r.0.locals, m.stack) == c && r.0.allScopes == w.allScopes
    ensures !IsActive(w, m, span) ==>
      && r.1 == |w.allScopes|
      && r.0.allScopes == w.allScopes + [Scope(span, m.stack, finishOnClose, false)]
      && Contents(r.0.locals, m.stack) == Contents(w.locals, m.stack) + [r.1]
  {
    var c := Contents(w.locals, m.stack);
    if IsActive(w, m, span) then
      (w.(locals := Touch(w.locals, m.stack)), c[|c| - 1])
    else
      var s := |w.allScopes|;
      var scopes := w.allScopes + [Scope(span, m.stack, finishOnClose, false)];
      assert scopes[..|w.allScopes|] == w.allScopes;
      (w.(allScopes := scopes, locals := Push(w.locals, m.stack, s)), s)
  }

  /** Activation touches no other stack, allocates nothing else, and keeps
      the heap valid and the finish-once invariant. */
  lemma ActivateKeepsInvariants(w: World, m: ScopeManager, span: SpanRef, foc: bool)
    requires Valid(w) && span < |w.allSpans|
    ensures var w' := Activate(w, m, span, foc).0;
      && Valid(w') && Grows(w, w')
      && OnlyKeyChanged(w.locals, w'.locals, m.stack.key)
      && (FinishedOnce(w) ==> FinishedOnce(w'))
  {
  }

  /** Activating the active span again returns the same scope and leaves
      the stack as it is; from an empty stack its size stays 1. */
  lemma ActivateIsIdempotent(w: World, m: ScopeManager, span: SpanRef, foc1: bool, foc2: bool)
    ensures var (w1, s1) := Activate(w, m, span, foc1);
      var (w2, s2) := Activate(w1, m, span, foc2);
      && s2 == s1
      && Contents(w2.locals, m.stack) == Contents(w1.locals, m.stack)
      && (Contents(w.locals, m.stack) == [] ==> |Contents(w2.locals, m.stack)| == 1)
  {
  }

  /** Reading the active scope twice gives the same scope; the read removes
      nothing. */
  lemma ActiveIsStable(w: World, m: ScopeManager)
    requires Valid(w)
    ensures var (w1, a1) := Active(w, m);
      var (w2, a2) := Active(w1, m);
      a1 == a2 && Contents(w2.locals, m.stack) == Contents(w.locals, m.stack)
  {
  }

  /** The scope just activated is what `active` reports. */
  lemma ActiveAfterActivate(w: World, m: ScopeManager, span: SpanRef, foc: bool)
    requires Valid(w) && span < |w.allSpans|
    ensures var (w1, s) := Activate(w, m, span, foc);
      Valid(w1) && Active(w1, m).1 == Some(s)
  {
    ActivateKeepsInvariants(w, m, span, foc);
  }

  /** Activates each span in order. */
  function ActivateAll(w: World, m: ScopeManager, spans: seq<SpanRef>, foc: bool)
    : (r: (World, seq<ScopeRef>))
    ensures |r.1| == |spans| && r.0.allSpans == w.allSpans
    decreases |spans|
  {
    if |spans| == 0 then (w, [])
    else
      var (w1, s) := Activate(w, m, spans[0], foc);
      var (w2, rest) := ActivateAll(w1, m, spans[1..], foc);
      (w2, [s] + rest)
  }

  /** Activation never alters a scope object that already exists, and each
      returned scope wraps the span it was activated for. */
  lemma {:induction false} ActivateAllWrapsSpans(w: World, m: ScopeManager, spans: seq<SpanRef>, foc: bool)
    ensures var (w', scopes) := ActivateAll(w, m, spans, foc);
      && |w'.allScopes| >= |w.allScopes| && w'.allScopes[..|w.allScopes|] == w.allScopes
      && forall i :: 0 <= i < |spans| ==> scopes[i] < |w'.allScopes| && w'.allScopes[scopes[i]].span == spans[i]
    decreases |spans|
  {
    if |spans| > 0 {
      var a := Activate(w, m, spans[0], foc);
      var tail := spans[1..];
      ActivateAllWrapsSpans(a.0, m, tail, foc);
      var rest := ActivateAll(a.0, m, tail, foc);
      var scopes := [a.1] + rest.1;
      assert rest.0.allScopes[..|a.0.allScopes|] == a.0.allScopes;
      assert rest.0.allScopes[a.1] == a.0.allScopes[a.1];
      assert forall i :: 0 < i < |spans| ==> scopes[i] == rest.1[i - 1] && tail[i - 1] == spans[i];
    }
  }

  /** Activating spans that each differ from the one before (and from the
      active one) pushes one new scope per span: the stack then ends with the
      scopes in activation order. */
  lemma {:induction false} ActivateAllInOrder(w: World, m: ScopeManager, spans: seq<SpanRef>, foc: bool)
    requires forall i :: 0 <= i < |spans| - 1 ==> spans[i] != spans[i + 1]
    requires |spans| > 0 ==> !IsActive(w, m, spans[0])
    ensures Contents(ActivateAll(w, m, spans, foc).0.locals, m.stack)
            == Contents(w.locals, m.stack) + ActivateAll(w, m, spans, foc).1
    decreases |spans|
  {
    if |spans| > 0 {
      var a := Activate(w, m, spans[0], foc);
      var tail := spans[1..];
      FirstActivationPushes(w, m, spans, foc);
      ActivateAllInOrder(a.0, m, tail, foc);
      var rest := ActivateAll(a.0, m, tail, foc);
      var c := Contents(w.locals, m.stack);
      assert (c + [a.1]) + rest.1 == c + ([a.1] + rest.1);
    }
  }

  /** The first step of such a run pushes a new scope, after which the next
      span is not the active one. */
  lemma FirstActivationPushes(w: World, m: ScopeManager, spans: seq<SpanRef>, foc: bool)
    requires |spans| > 0 && !IsActive(w, m, spans[0])
    requires |spans| > 1 ==> spans[0] != spans[1]
    ensures var a := Activate(w, m, spans[0], foc);
      && Contents(a.0.locals, m.stack) == Contents(w.locals, m.stack) + [a.1]
      && (|spans| > 1 ==> !IsActive(a.0, m, spans[1..][0]))
      && ActivateAll(w, m, spans, foc) == (ActivateAll(a.0, m, spans[1..], foc).0, [a.1] + ActivateAll(a.0, m, spans[1..], foc).1)
  {
  }

  /** After such a run of activations the active scope is the last one pushed. */
  lemma ActiveAfterActivateAll(w: World, m: ScopeManager, spans: seq<SpanRef>, foc: bool)
    requires forall i :: 0 <= i < |spans| - 1 ==> spans[i] != spans[i + 1]
    requires |spans| > 0 && !IsActive(w, m, spans[0])
    ensures Active(ActivateAll(w, m, spans, foc).0, m).1 == Some(ActivateAll(w, m, spans, foc).1[|spans| - 1])
  {
    ActivateAllInOrder(w, m, spans, foc);
  }

  /** Scope#close: rejected with the non-active RuntimeError unless the
      scope is the top of its stack (nothing else changes); otherwise pops
      it, marks it closed, and finishes its span when `finish_on_close` is
      set, passing on a SpanAlreadyFinished from that finish; returns the
      scope. */
  function Close(w: World, s: ScopeRef, now: Time): (r: (World, Result<ScopeRef>))
    requires Valid(w) && s < |w.allScopes|
    ensures Valid(r.0) && Grows(w, r.0)
    ensures !OnTop(w, s) ==>
      r.1 == Err(NonActiveClose) && r.0 == w.(locals := Touch(w.locals, w.allScopes[s].stack))
    ensures OnTop(w, s) ==>
      var sc := w.allScopes[s];
      var c := Contents(w.locals, sc.stack);
      && OnlyKeyChanged(w.locals, r.0.locals, sc.stack.key)
      && Contents(r.0.locals, sc.stack) == c[..|c| - 1]
      && r.0.allScopes == w.allScopes[s := sc.(closed := true)]
      && |r.0.allSpans| == |w.allSpans|
      && (r.0.allSpans[sc.span].Finished() <==> sc.finishOnClose || w.allSpans[sc.span].Finished())
      && (!sc.finishOnClose ==>
            r.1 == Ok(s) && r.0 == w.(locals := r.0.locals, allScopes := r.0.allScopes))
      && (sc.finishOnClose && w.allSpans[sc.span].inProgress ==>
            && r.1 == Ok(s)
            && r.0 == w.(locals := r.0.locals, allScopes := r.0.allScopes,
                         allSpans := w.allSpans[sc.span := w.allSpans[sc.span].(inProgress := false, endTime := Some(now))],
                         tracer := w.tracer.(finished := w.tracer.finished + [sc.span])))
      && (sc.finishOnClose && w.allSpans[sc.span].Finished() ==>
            r.1 == Err(SpanAlreadyFinished) && r.0 == w.(locals := r.0.locals, allScopes := r.0.allScopes))
    ensures FinishedOnce(w) ==> FinishedOnce(r.0)
  {
    var sc := w.allScopes[s];
    if !OnTop(w, s) then
      (w.(locals := Touch(w.locals, sc.stack)), Err(NonActiveClose))
    else
      var w1 := PopClosed(w, s);
      if sc.finishOnClose then
        var (w2, f) := Heap.Finish(w1, sc.span, now);
        (w2, if f.Ok? then Ok(s) else Err(f.error))
      else
        (w1, Ok(s))
  }

  /** The first half of closing the top scope: it is popped from its stack
      and marked closed; spans and the tracer are untouched. */
  function PopClosed(w: World, s: ScopeRef): (r: World)
    requires Valid(w) && s < |w.allScopes| && OnTop(w, s)
    ensures Valid(r) && Grows(w, r)
    ensures var sc := w.allScopes[s];
      var c := Contents(w.locals, sc.stack);
      && OnlyKeyChanged(w.locals, r.locals, sc.stack.key)
      && Contents(r.locals, sc.stack) == c[..|c| - 1]
      && r == w.(locals := r.locals, allScopes := w.allScopes[s := sc.(closed := true)])
    ensures FinishedOnce(w) ==> FinishedOnce(r)
  {
    var sc := w.allScopes[s];
    var (l2, _) := Pop(Touch(w.locals, sc.stack), sc.stack);
    PopKeepsValid(w, sc.stack, l2);
    w.(locals := l2, allScopes := w.allScopes[s := sc.(closed := true)])
  }

  /** Two nested activations of different spans, the outer one new. */
  function ActivateNested(w: World, m: ScopeManager, outer: SpanRef, inner: SpanRef): (r: (World, ScopeRef, ScopeRef))
    requires Valid(w) && outer < |w.allSpans| && inner < |w.allSpans|
    requires outer != inner && !IsActive(w, m, outer)
    ensures Valid(r.0)
    ensures var c := Contents(w.locals, m.stack);
      && Contents(r.0.locals, m.stack) == c + [r.1, r.2]
      && r.1 < |r.0.allScopes| && r.2 < |r.0.allScopes|
      && r.0.allScopes[r.1] == Scope(outer, m.stack, false, false)
      && r.0.allScopes[r.2] == Scope(inner, m.stack, false, false)
  {
    var a1 := Activate(w, m, outer, false);
    ActivateKeepsInvariants(w, m, outer, false);
    assert !IsActive(a1.0, m, inner);
    var a2 := Activate(a1.0, m, inner, false);
    ActivateKeepsInvariants(a1.0, m, inner, false);
    assert a2.0.allScopes[a1.1] == a1.0.allScopes[a1.1];
    assert Contents(a2.0.locals, m.stack) == Contents(w.locals, m.stack) + [a1.1] + [a2.1];
    (a2.0, a1.1, a2.1)
  }

  /** Closing the outer of two nested scopes while the inner one is open is
      rejected and leaves the stack as it is. */
  lemma OutOfOrderCloseRejected(w: World, m: ScopeManager, outer: SpanRef, inner: SpanRef, now: Time)
    requires Valid(w) && outer < |w.allSpans| && inner < |w.allSpans|
    requires outer != inner && !IsActive(w, m, outer)
    ensures var (w2, so, si) := ActivateNested(w, m, outer, inner);
      && Close(w2, so, now).1 == Err(NonActiveClose)
      && Contents(Close(w2, so, now).0.locals, m.stack) == Contents(w2.locals, m.stack)
  {
  }

  /** Closing the inner then the outer scope succeeds for both, marks both
      closed and restores the stack. */
  lemma InOrderCloseRestores(w: World, m: ScopeManager, outer: SpanRef, inner: SpanRef, now: Time)
    requires Valid(w) && outer < |w.allSpans| && inner < |w.allSpans|
    requires outer != inner && !IsActive(w, m, outer)
    ensures var (w2, so, si) := ActivateNested(w, m, outer, inner);
      var (w3, r3) := Close(w2, si, now);
      var (w4, r4) := Close(w3, so, now);
      && r3 == Ok(si) && r4 == Ok(so)
      && Contents(w4.locals, m.stack) == Contents(w.locals, m.stack)
      && w4.allScopes[so].closed && w4.allScopes[si].closed
  {
    var (w2, so, si) := ActivateNested(w, m, outer, inner);
    var c := Contents(w.locals, m.stack);
    var (w3, r3) := Close(w2, si, now);
    assert (c + [so, si])[..|c| + 1] == c + [so];
    assert w3.allScopes[so] == w2.allScopes[so];
    assert (c + [so])[..|c|] == c;
  }
}

=== FILE: scope_stack.dfy ===
/** ScopeStack: a LIFO list of scopes kept in the execution context's local
    store under the stack's own freshly drawn identifier. One execution
    context is modelled, so its local store is a map from identifier to
    list; an identifier with no entry is a store not created yet. */
module ScopeStacks {
  import opened Values
  import opened Ids

  /** A reference to a Scope object. */
  type ScopeRef = nat

  /** The execution context's local variables that hold scope lists. */
  type Locals = map<string, seq<ScopeRef>>

  datatype ScopeStack = ScopeStack(key: string)

  /** ScopeStack.new: draws the identifier its list will be stored under. */
  function NewStack(nextId: nat): (r: (nat, ScopeStack))
    ensures r.0 > nextId
    ensures !IssuedBefore(r.1.key, nextId) && IssuedBefore(r.1.key, r.0)
  {
    NotIssuedYet(nextId, nextId);
    (nextId + 1, ScopeStack(IdText(nextId)))
  }

  /** Two stacks created from the same supply never share a store key. */
  lemma StacksAreDistinct(nextId: nat)
    ensures var (n1, a) := NewStack(nextId);
      var (_, b) := NewStack(n1);
      a.key != b.key
  {
    var (n1, a) := NewStack(nextId);
    var (_, b) := NewStack(n1);
    if a.key == b.key {
      FreshIdIsNew(a.key, n1);
    }
  }

  /** The list behind a stack; a store not created yet reads as empty. */
  function Contents(l: Locals, s: ScopeStack): seq<ScopeRef> {
    if s.key in l then l[s.key] else []
  }

  /** The private `store`: creates the (empty) list on first use. */
  function Touch(l: Locals, s: ScopeStack): (l': Locals)
    ensures s.key in l' && l'[s.key] == Contents(l, s)
    ensures forall k :: k in l && k != s.key ==> k in l' && l'[k] == l[k]
    ensures l'.Keys == l.Keys + {s.key}
  {
    l[s.key := Contents(l, s)]
  }

  /** `push`: appends to the end. */
  function Push(l: Locals, s: ScopeStack, x: ScopeRef): (l': Locals)
    ensures s.key in l' && l'[s.key] == Contents(l, s) + [x]
    ensures forall k :: k in l && k != s.key ==> k in l' && l'[k] == l[k]
    ensures l'.Keys == l.Keys + {s.key}
  {
    l[s.key := Contents(l, s) + [x]]
  }

  /** `pop`: removes and returns the last element; nil on an empty stack,
      which stays empty. */
  function Pop(l: Locals, s: ScopeStack): (r: (Locals, Option<ScopeRef>))
    ensures var (l', top) := r;
      && s.key in l'
      && (Contents(l, s) == [] <==> top.None?)
      && (top.None? ==> l'[s.key] == [])
      && (top.Some? ==> Contents(l, s) == l'[s.key] + [top.value])
      && (forall k :: k in l && k != s.key ==> k in l' && l'[k] == l[k])
      && l'.Keys == l.Keys + {s.key}
  {
    var c := Contents(l, s);
    if |c| == 0 then (l[s.key := []], None)
    else (l[s.key := c[..|c| - 1]], Some(c[|c| - 1]))
  }

  /** `peek`: the last element, left in place; nil on an empty stack. */
  function Peek(l: Locals, s: ScopeStack): (r: (Locals, Option<ScopeRef>))
    ensures var (l', top) := r;
      && l' == Touch(l, s)
      && (Contents(l, s) == [] <==> top.None?)
      && (top.Some? ==> top.value == Contents(l, s)[|Contents(l, s)| - 1])
  {
    var c := Contents(l, s);
    (Touch(l, s), if |c| == 0 then None else Some(c[|c| - 1]))
  }

  /** `stack`: a copy of the list, or nil before the store has been created.
      Being a value, the copy is unaffected by later pushes and pops, and
      changing it cannot reach the live list. */
  function Snapshot(l: Locals, s: ScopeStack): (r: Option<seq<ScopeRef>>)
    ensures r.None? <==> s.key !in l
    ensures r.Some? ==> r.value == Contents(l, s)
  {
    if s.key in l then Some(l[s.key]) else None
  }

  /** Push then pop returns the pushed scope and restores the list. */
  lemma PushPop(l: Locals, s: ScopeStack, x: ScopeRef)
    ensures Pop(Push(l, s, x), s).1 == Some(x)
    ensures Contents(Pop(Push(l, s, x), s).0, s) == Contents(l, s)
    ensures Peek(Push(l, s, x), s).1 == Some(x)
  {
    assert (Contents(l, s) + [x])[..|Contents(l, s)|] == Contents(l, s);
  }

  /** Operations on one stack never change another stack's list. */
  lemma StacksAreIsolated(l: Locals, s: ScopeStack, t: ScopeStack, x: ScopeRef)
    requires s.key != t.key
    ensures Snapshot(Push(l, s, x), t) == Snapshot(l, t)
    ensures Snapshot(Pop(l, s).0, t) == Snapshot(l, t)
    ensures Snapshot(Peek(l, s).0, t) == Snapshot(l, t)
  {
  }

  /** Pushes every element of `xs` in order. */
  function PushAll(l: Locals, s: ScopeStack, xs: seq<ScopeRef>): (l': Locals)
    ensures s.key in l' || xs == []
    ensures Contents(l', s) == Contents(l, s) + xs
    decreases |xs|
  {
    if |xs| == 0 then l
    else
      assert Contents(l, s) + xs == (Contents(l, s) + [xs[0]]) + xs[1..];
      PushAll(Push(l, s, xs[0]), s, xs[1..])
  }

  /** Pops `n` times, collecting what each pop returned. */
  function PopN(l: Locals, s: ScopeStack, n: nat): (r: (Locals, seq<Option<ScopeRef>>))
    ensures |r.1| == n
    decreases n
  {
    if n == 0 then (l, [])
    else
      var (l1, top) := Pop(l, s);
      var (l2, rest) := PopN(l1, s, n - 1);
      (l2, [top] + rest)
  }

  function Reverse<T>(xs: seq<T>): (r: seq<T>)
    ensures |r| == |xs|
    ensures forall i :: 0 <= i < |xs| ==> r[i] == xs[|xs| - 1 - i]
  {
    if |xs| == 0 then [] else Reverse(xs[1..]) + [xs[0]]
  }

  function Wrap(xs: seq<ScopeRef>): (r: seq<Option<ScopeRef>>)
    ensures |r| == |xs|
    ensures forall i :: 0 <= i < |xs| ==> r[i] == Some(xs[i])
  {
    seq(|xs|, i requires 0 <= i < |xs| => Some(xs[i]))
  }

  /** LIFO: popping as many times as was pushed gives the pushed scopes in
      reverse order and leaves the list as it was. */
  lemma PushAllPopN(l: Locals, s: ScopeStack, xs: seq<ScopeRef>)
    ensures var (l', popped) := PopN(PushAll(l, s, xs), s, |xs|);
      popped == Wrap(Reverse(xs)) && Contents(l', s) == Contents(l, s)
  {
    PopNPopsSuffix(PushAll(l, s, xs), s, Contents(l, s), xs);
  }

  /** Popping `|xs|` times from a list ending in `xs` returns `xs` last
      element first and leaves the part before it. */
  lemma {:induction false} PopNPopsSuffix(l: Locals, s: ScopeStack, below: seq<ScopeRef>, xs: seq<ScopeRef>)
    requires Contents(l, s) == below + xs
    ensures PopN(l, s, |xs|).1 == Wrap(Reverse(xs))
    ensures Contents(PopN(l, s, |xs|).0, s) == below
    decreases |xs|
  {
    if |xs| > 0 {
      var init := xs[..|xs| - 1];
      var last := xs[|xs| - 1];
      assert below + xs == (below + init) + [last];
      var l1 := Pop(l, s).0;
      assert Contents(l1, s) == below + init;
      PopNPopsSuffix(l1, s, below, init);
      WrapReverseSnoc(init, last);
    }
  }

  lemma WrapReverseSnoc(init: seq<ScopeRef>, last: ScopeRef)
    ensures Wrap(Reverse(init + [last])) == [Some(last)] + Wrap(Reverse(init))
  {
  }
}

=== FILE: span.dfy ===
/** The span lifecycle: a span is created in progress, may be renamed,
    tagged, logged and given baggage while in progress, and is finished
    exactly once; every mutation after that raises SpanAlreadyFinished.
    Adding the span to its tracer's `finished_spans` happens at the tracer
    level (see Heap.Finish). */
module Spans {
  import opened Values
  import opened SpanContexts

  /** An instant; clocks are not modelled, times are opaque. */
  type Time = nat

  /** One `log` call. The extra `**fields` are not modelled. */
  datatype LogEntry = LogEntry(event: Value, timestamp: Time)

  datatype Span = Span(
    ctx: Ctx,
    operationName: string,
    tags: map<Value, Value>,
    logs: seq<LogEntry>,
    startTime: Time,
    endTime: Option<Time>,
    inProgress: bool)
  {
    predicate Finished() { !inProgress }
  }

  /** Span.new: the operation name must be a String (TypeError otherwise);
      nil tags become an empty Hash; the span starts in progress with no
      end time and no logs. */
  function New(ctx: Ctx, operationName: Value, startTime: Time, tags: Option<map<Value, Value>>)
    : (r: Result<Span>)
    ensures r.Err? <==> !operationName.Str?
    ensures r.Err? ==> r.error == TypeError
    ensures r.Ok? ==>
      && r.value.inProgress && !r.value.Finished()
      && r.value.ctx == ctx
      && r.value.operationName == operationName.s
      && r.value.startTime == startTime
      && r.value.endTime == None
      && r.value.logs == []
      && (tags.None? ==> r.value.tags == map[])
      && (tags.Some? ==> r.value.tags == tags.value)
  {
    if !operationName.Str? then Err(TypeError)
    else
      var t := if tags.Some? then tags.value else map[];
      Ok(Span(ctx, operationName.s, t, [], startTime, None, true))
  }

  /** `ensure_in_progress!`: the guard every mutation runs after its type checks. */
  function EnsureInProgress(s: Span): (r: Result<()>)
    ensures r.Ok? <==> s.inProgress
    ensures r.Err? ==> r.error == SpanAlreadyFinished
  {
    if s.inProgress then Ok(()) else Err(SpanAlreadyFinished)
  }

  /** `operation_name=`: a String name (TypeError first), then the in-progress guard. */
  function SetOperationName(s: Span, name: Value): (r: Result<Span>)
    ensures !name.Str? ==> r == Err(TypeError)
    ensures name.Str? && s.Finished() ==> r == Err(SpanAlreadyFinished)
    ensures name.Str? && s.inProgress ==> r.Ok? && r.value == s.(operationName := name.s)
  {
    if !name.Str? then Err(TypeError)
    else if !s.inProgress then Err(SpanAlreadyFinished)
    else Ok(s.(operationName := name.s))
  }

  /** Tag values of these classes are stored as given; anything else is
      stored as its `to_s` text. */
  predicate StoredAsIs(v: Value) {
    v.Str? || v.Int? || v.Float? || v.Bool?
  }

  function TagValue(v: Value): (t: Value)
    ensures StoredAsIs(v) ==> t == v
    ensures !StoredAsIs(v) ==> t == Str(ToS(v))
  {
    if StoredAsIs(v) then v else Str(ToS(v))
  }

  /** `set_tag`: a String key (TypeError first), the in-progress guard, then
      the tag is written and nothing else about the span changes. */
  function SetTag(s: Span, key: Value, value: Value): (r: Result<Span>)
    ensures !key.Str? ==> r == Err(TypeError)
    ensures key.Str? && s.Finished() ==> r == Err(SpanAlreadyFinished)
    ensures key.Str? && s.inProgress ==>
      && r.Ok?
      && r.value.tags.Keys == s.tags.Keys + {key}
      && r.value.tags[key] == (if StoredAsIs(value) then value else Str(ToS(value)))
      && (forall k :: k in s.tags && k != key ==> r.value.tags[k] == s.tags[k])
      && r.value == s.(tags := r.value.tags)
  {
    if !key.Str? then Err(TypeError)
    else if !s.inProgress then Err(SpanAlreadyFinished)
    else Ok(s.(tags := s.tags[key := TagValue(value)]))
  }

  /** `log`: the event must be a String or nil (TypeError first), then the
      in-progress guard, then one entry is appended. */
  function Log(s: Span, event: Value, timestamp: Time): (r: Result<Span>)
    ensures !(event.Str? || event.Nil?) ==> r == Err(TypeError)
    ensures (event.Str? || event.Nil?) && s.Finished() ==> r == Err(SpanAlreadyFinished)
    ensures (event.Str? || event.Nil?) && s.inProgress ==>
      && r.Ok?
      && |r.value.logs| == |s.logs| + 1
      && r.value.logs[..|s.logs|] == s.logs
      && r.value.logs[|s.logs|] == LogEntry(event, timestamp)
      && r.value == s.(logs := r.value.logs)
  {
    if !(event.Str? || event.Nil?) then Err(TypeError)
    else if !s.inProgress then Err(SpanAlreadyFinished)
    else Ok(s.(logs := s.logs + [LogEntry(event, timestamp)]))
  }

  /** The span-local part of `finish`: the in-progress guard, then the end
      time is recorded and the span leaves the in-progress state. */
  function MarkFinished(s: Span, endTime: Time): (r: Result<Span>)
    ensures r.Ok? <==> s.inProgress
    ensures r.Err? ==> r.error == SpanAlreadyFinished
    ensures r.Ok? ==>
      && r.value.Finished() && r.value.endTime == Some(endTime)
      && r.value == s.(inProgress := false, endTime := Some(endTime))
  {
    if !s.inProgress then Err(SpanAlreadyFinished)
    else Ok(s.(endTime := Some(endTime), inProgress := false))
  }

  /** Span#set_baggage_item: a String key and a String-or-nil value
      (TypeError first), the in-progress guard, then `value.to_s` (so nil
      becomes "") is written under the key into the context's baggage Hash. */
  function SetBaggageItem(st: Store, s: Span, key: Value, value: Value): (r: Result<Store>)
    requires Owns(st, s.ctx)
    ensures !key.Str? || !(value.Str? || value.Nil?) ==> r == Err(TypeError)
    ensures key.Str? && (value.Str? || value.Nil?) && s.Finished() ==> r == Err(SpanAlreadyFinished)
    ensures key.Str? && (value.Str? || value.Nil?) && s.inProgress ==>
      && r.Ok?
      && r.value.nextId == st.nextId && |r.value.bags| == |st.bags|
      && r.value.bags[s.ctx.bag] == st.bags[s.ctx.bag][key := Str(if value.Nil? then "" else value.s)]
      && (forall b :: 0 <= b < |st.bags| && b != s.ctx.bag ==> r.value.bags[b] == st.bags[b])
  {
    if !key.Str? || !(value.Str? || value.Nil?) then Err(TypeError)
    else if !s.inProgress then Err(SpanAlreadyFinished)
    else
      var bag := st.bags[s.ctx.bag];
      Ok(Store(st.nextId, st.bags[s.ctx.bag := bag[key := Str(ToS(value))]]))
  }

  /** Span#get_baggage_item: a String key (TypeError otherwise), allowed on
      a finished span; nil when the key is absent. */
  function GetBaggageItem(st: Store, s: Span, key: Value): (r: Result<Value>)
    requires Owns(st, s.ctx)
    ensures r.Err? <==> !key.Str?
    ensures r.Err? ==> r.error == TypeError
    ensures r.Ok? && key in st.bags[s.ctx.bag] ==> r.value == st.bags[s.ctx.bag][key]
    ensures r.Ok? && key !in st.bags[s.ctx.bag] ==> r.value == Nil
  {
    if !key.Str? then Err(TypeError)
    else
      var bag := st.bags[s.ctx.bag];
      Ok(if key in bag then bag[key] else Nil)
  }

  /** The mutations of the span record itself: rename, tag, log and
      finish. `set_baggage_item` writes into the context's baggage Hash
      instead, and its refusal on a finished span is stated by
      SetBaggageItem. */
  datatype Mutation =
    | Rename(name: Value)
    | Tag(key: Value, value: Value)
    | AddLog(event: Value, timestamp: Time)
    | Finish(endTime: Time)

  function Apply(s: Span, m: Mutation): Result<Span> {
    match m
    case Rename(n) => SetOperationName(s, n)
    case Tag(k, v) => SetTag(s, k, v)
    case AddLog(e, t) => Log(s, e, t)
    case Finish(t) => MarkFinished(s, t)
  }

  /** Once finished, a span stays finished and frozen: a rename, tag, log
      or second finish is rejected, with TypeError when its arguments are ill-typed and
      SpanAlreadyFinished otherwise. */
  lemma FinishedIsFrozen(s: Span, m: Mutation)
    requires s.Finished()
    ensures Apply(s, m).Err?
    ensures Apply(s, m).error == TypeError || Apply(s, m).error == SpanAlreadyFinished
    ensures (m.Finish? || (m.Rename? && m.name.Str?) || (m.Tag? && m.key.Str?)
             || (m.AddLog? && (m.event.Str? || m.event.Nil?)))
      ==> Apply(s, m).error == SpanAlreadyFinished
  {
  }

  /** Finished exactly once: of any run of mutations, at most one `Finish`
      succeeds, and after it nothing does. */
  function Run(s: Span, ms: seq<Mutation>): (r: (Span, nat))
    ensures r.1 <= 1
    ensures s.Finished() ==> r.0 == s && r.1 == 0
    ensures r.1 == 1 ==> s.inProgress && r.0.Finished()
    ensures r.0.Finished() <==> s.Finished() || r.1 == 1
    decreases |ms|
  {
    if |ms| == 0 then (s, 0)
    else
      var step := Apply(s, ms[0]);
      if step.Ok? then
        var (s', n) := Run(step.value, ms[1..]);
        (s', n + (if ms[0].Finish? then 1 else 0))
      else Run(s, ms[1..])
  }
}

=== FILE: span_context.dfy ===
/** SpanContext: trace lineage plus baggage. Baggage lives in a Hash object
    that `child_of` hands to the child as is, so the store of Hash objects is
    explicit and a context names its Hash by reference. */
module SpanContexts {
  import opened Values
  import opened Ids

  /** A reference to a baggage Hash object in the store. */
  type BagRef = nat

  /** The contents of one baggage Hash. */
  type Baggage = map<Value, Value>

  /** What creating contexts touches: the identifier supply and every baggage
      Hash allocated so far (`BagRef` indexes `bags`). */
  datatype Store = Store(nextId: nat, bags: seq<Baggage>)

  datatype Ctx = Ctx(traceId: string, spanId: string, parentSpanId: Option<string>, bag: BagRef)

  /** The context's baggage Hash is allocated in the store. */
  predicate Owns(st: Store, c: Ctx) {
    c.bag < |st.bags|
  }

  /** The `baggage:` argument of the constructor: omitted (a new empty Hash),
      an existing Hash object, or some value that is not a Hash. */
  datatype BaggageArg = DefaultBaggage | HashArg(ref: BagRef) | NotAHash(v: Value)

  /** SpanContext.new: every id must be a String (the parent may also be nil)
      and the baggage a Hash, otherwise TypeError; the default baggage is a
      freshly allocated empty Hash. */
  function New(st: Store, traceId: Value, spanId: Value, parentSpanId: Value, baggage: BaggageArg)
    : (r: (Store, Result<Ctx>))
    requires baggage.HashArg? ==> baggage.ref < |st.bags|
    ensures r.1.Ok? <==>
      traceId.Str? && spanId.Str? && (parentSpanId.Str? || parentSpanId.Nil?) && !baggage.NotAHash?
    ensures r.1.Err? ==> r.1.error == TypeError && r.0 == st
    ensures r.1.Ok? ==>
      var c := r.1.value;
      && c.traceId == traceId.s && c.spanId == spanId.s
      && (parentSpanId.Nil? ==> c.parentSpanId == None)
      && (parentSpanId.Str? ==> c.parentSpanId == Some(parentSpanId.s))
      && Owns(r.0, c)
      && r.0.nextId == st.nextId
      && (baggage.HashArg? ==> c.bag == baggage.ref && r.0 == st)
      && (baggage.DefaultBaggage? ==> c.bag == |st.bags| && r.0.bags == st.bags + [map[]])
  {
    if !traceId.Str? || !spanId.Str? || !(parentSpanId.Str? || parentSpanId.Nil?) || baggage.NotAHash? then
      (st, Err(TypeError))
    else
      var parent := if parentSpanId.Str? then Some(parentSpanId.s) else None;
      match baggage
      case HashArg(ref) => (st, Ok(Ctx(traceId.s, spanId.s, parent, ref)))
      case DefaultBaggage =>
        (Store(st.nextId, st.bags + [map[]]), Ok(Ctx(traceId.s, spanId.s, parent, |st.bags|)))
  }

  /** SpanContext.root: a new trace id, then a new span id, no parent, and a
      new empty baggage Hash. */
  function Root(st: Store): (r: (Store, Ctx))
    ensures var (st', c) := r;
      && c.parentSpanId == None
      && c.traceId != c.spanId
      && !IssuedBefore(c.traceId, st.nextId) && !IssuedBefore(c.spanId, st.nextId)
      && IssuedBefore(c.traceId, st'.nextId) && IssuedBefore(c.spanId, st'.nextId)
      && c.bag == |st.bags| && st'.bags == st.bags + [map[]]
      && st'.bags[c.bag] == map[]
      && Owns(st', c)
  {
    var traceId := IdText(st.nextId);
    var spanId := IdText(st.nextId + 1);
    IdTextInjective(st.nextId, st.nextId + 1);
    NotIssuedYet(st.nextId, st.nextId);
    NotIssuedYet(st.nextId + 1, st.nextId);
    (Store(st.nextId + 2, st.bags + [map[]]), Ctx(traceId, spanId, None, |st.bags|))
  }

  /** SpanContext.child_of: the parent's trace id, a new span id, the
      parent's span id as parent, and the parent's very baggage Hash. */
  function ChildOf(st: Store, p: Ctx): (r: (Store, Ctx))
    ensures var (st', c) := r;
      && c.traceId == p.traceId
      && c.parentSpanId == Some(p.spanId)
      && c.bag == p.bag
      && !IssuedBefore(c.spanId, st.nextId) && IssuedBefore(c.spanId, st'.nextId)
      && st'.bags == st.bags
      && st'.nextId > st.nextId
  {
    NotIssuedYet(st.nextId, st.nextId);
    (Store(st.nextId + 1, st.bags), Ctx(p.traceId, IdText(st.nextId), Some(p.spanId), p.bag))
  }

  /** A child's span id differs from its parent's span id and parent span id
      whenever those were drawn from this supply earlier. */
  lemma ChildSpanIdIsNew(st: Store, p: Ctx)
    requires IssuedBefore(p.spanId, st.nextId)
    requires p.parentSpanId.Some? ==> IssuedBefore(p.parentSpanId.value, st.nextId)
    ensures ChildOf(st, p).1.spanId != p.spanId
    ensures p.parentSpanId.Some? ==> ChildOf(st, p).1.spanId != p.parentSpanId.value
  {
    FreshIdIsNew(p.spanId, st.nextId);
    if p.parentSpanId.Some? {
      FreshIdIsNew(p.parentSpanId.value, st.nextId);
    }
  }

  /** Without its precondition ChildSpanIdIsNew fails: a parent whose span
      id did not come from this supply (extracted from a carrier, or built
      by the caller) may carry the very id the supply hands out next. */
  lemma ForeignParentMayShareChildSpanId()
    ensures var p := Ctx("t", IdText(0), None, 0);
      ChildOf(Store(0, [map[]]), p).1.spanId == p.spanId
  {
  }

  /** The baggage Hash of a context. */
  function BaggageOf(st: Store, c: Ctx): Baggage
    requires Owns(st, c)
  {
    st.bags[c.bag]
  }

  /** SpanContext#set_baggage_item: stores `value.to_s` under `key.to_s` in
      the context's Hash, which every context sharing that Hash then sees. */
  function SetBaggageItem(st: Store, c: Ctx, key: Value, value: Value): (st': Store)
    requires Owns(st, c)
    ensures st'.nextId == st.nextId && |st'.bags| == |st.bags|
    ensures Str(ToS(key)) in st'.bags[c.bag] && st'.bags[c.bag][Str(ToS(key))] == Str(ToS(value))
    ensures forall k :: k in st.bags[c.bag] && k != Str(ToS(key)) ==>
      k in st'.bags[c.bag] && st'.bags[c.bag][k] == st.bags[c.bag][k]
    ensures st'.bags[c.bag].Keys == st.bags[c.bag].Keys + {Str(ToS(key))}
    ensures forall b :: 0 <= b < |st.bags| && b != c.bag ==> st'.bags[b] == st.bags[b]
  {
    var bag := st.bags[c.bag];
    Store(st.nextId, st.bags[c.bag := bag[Str(ToS(key)) := Str(ToS(value))]])
  }

  /** SpanContext#get_baggage_item: the entry under `key.to_s`, or nil. */
  function GetBaggageItem(st: Store, c: Ctx, key: Value): (v: Value)
    requires Owns(st, c)
    ensures Str(ToS(key)) !in BaggageOf(st, c) ==> v == Nil
    ensures Str(ToS(key)) in BaggageOf(st, c) ==> v == BaggageOf(st, c)[Str(ToS(key))]
  {
    var bag := st.bags[c.bag];
    if Str(ToS(key)) in bag then bag[Str(ToS(key))] else Nil
  }

  /** Reading back an item gives the text that was written; other keys are
      unaffected. */
  lemma BaggageGetAfterSet(st: Store, c: Ctx, key: Value, value: Value, other: Value)
    requires Owns(st, c)
    ensures GetBaggageItem(SetBaggageItem(st, c, key, value), c, key) == Str(ToS(value))
    ensures ToS(other) != ToS(key) ==>
      GetBaggageItem(SetBaggageItem(st, c, key, value), c, other) == GetBaggageItem(st, c, other)
  {
  }

  /** A child shares its parent's baggage Hash: a write through either
      context is visible through the other. */
  lemma BaggageAliasedWithChild(st: Store, p: Ctx, key: Value, value: Value)
    requires Owns(st, p)
    ensures var (st1, c) := ChildOf(st, p);
      && Owns(st1, c)
      && GetBaggageItem(SetBaggageItem(st1, c, key, value), p, key) == Str(ToS(value))
      && GetBaggageItem(SetBaggageItem(st1, p, key, value), c, key) == Str(ToS(value))
  {
  }

  /** SpanContext#==: same trace id, span id, parent span id, and equal
      baggage contents (not necessarily the same Hash object). */
  function Equal(st: Store, a: Ctx, b: Ctx): (r: bool)
    requires Owns(st, a) && Owns(st, b)
    ensures a == b ==> r
    ensures a.bag == b.bag ==> (r <==> a.traceId == b.traceId && a.spanId == b.spanId && a.parentSpanId == b.parentSpanId)
    ensures r ==> a.traceId == b.traceId && a.spanId == b.spanId && a.parentSpanId == b.parentSpanId
    ensures r ==> BaggageOf(st, a) == BaggageOf(st, b)
    ensures (a.traceId == b.traceId && a.spanId == b.spanId && a.parentSpanId == b.parentSpanId
             && BaggageOf(st, a) == BaggageOf(st, b)) ==> r
  {
    && a.traceId == b.traceId
    && a.spanId == b.spanId
    && a.parentSpanId == b.parentSpanId
    && BaggageOf(st, a) == BaggageOf(st, b)
  }

  /** Equality compares baggage contents, not Hash identity: rebuilding a
      context from its own ids with a fresh default Hash gives a context
      that owns another Hash, and the two are equal exactly when the
      original's baggage is empty. */
  lemma EqualComparesBaggageContents(st: Store, c: Ctx)
    requires Owns(st, c)
    ensures var parent := if c.parentSpanId.Some? then Str(c.parentSpanId.value) else Nil;
      var (st1, r) := New(st, Str(c.traceId), Str(c.spanId), parent, DefaultBaggage);
      && r.Ok? && Owns(st1, c) && Owns(st1, r.value) && r.value.bag != c.bag
      && (Equal(st1, c, r.value) <==> BaggageOf(st, c) == map[])
  {
  }

  /** A child never equals its parent when the parent's span id came from
      this supply: the child's span id is a new one. */
  lemma ChildNeverEqualsParent(st: Store, p: Ctx)
    requires Owns(st, p) && IssuedBefore(p.spanId, st.nextId)
    ensures var (st1, c) := ChildOf(st, p);
      Owns(st1, c) && Owns(st1, p) && !Equal(st1, c, p)
  {
    FreshIdIsNew(p.spanId, st.nextId);
  }

  /** Two roots created one after the other are never equal: their span ids
      come from different draws of the supply. */
  lemma TwoRootsDiffer(st: Store)
    ensures var (st1, a) := Root(st);
      var (st2, b) := Root(st1);
      Owns(st2, a) && Owns(st2, b) && !Equal(st2, a, b)
  {
    var (st1, a) := Root(st);
    var (st2, b) := Root(st1);
    IdTextInjective(st.nextId + 1, st1.nextId + 1);
  }
}

=== FILE: text_map_codec.dfy ===
/** The text-map codec: the ids travel under `trace_id`, `span_id` and
    `parent_span_id`, the same keys both ways. */
module TextMapCodec {
  import opened Values
  import opened SpanContexts
  import Carriers

  const TraceIdKey := "trace_id"
  const SpanIdKey := "span_id"
  const ParentSpanIdKey := "parent_span_id"

  const Keys := Carriers.KeySet(TraceIdKey, SpanIdKey, ParentSpanIdKey)

  function Inject(c: Ctx, carrier: Carrier): (r: Carrier)
    ensures r.Keys == carrier.Keys + {TraceIdKey, SpanIdKey, ParentSpanIdKey}
    ensures r[TraceIdKey] == Str(c.traceId) && r[SpanIdKey] == Str(c.spanId)
    ensures r[ParentSpanIdKey] == (if c.parentSpanId.Some? then Str(c.parentSpanId.value) else Nil)
    ensures forall k :: k in carrier && k !in {TraceIdKey, SpanIdKey, ParentSpanIdKey} ==> r[k] == carrier[k]
  {
    Carriers.Inject(Keys, c, carrier)
  }

  function Extract(st: Store, carrier: Carrier): (r: (Store, Result<Option<Ctx>>))
    ensures !(Truthy(Lookup(carrier, TraceIdKey)) && Truthy(Lookup(carrier, SpanIdKey))) ==> r == (st, Ok(None))
    ensures carrier == map[] ==> r == (st, Ok(None))
    ensures r.1.Ok? && r.1.value.Some? ==>
      && Str(r.1.value.value.traceId) == Lookup(carrier, TraceIdKey)
      && Str(r.1.value.value.spanId) == Lookup(carrier, SpanIdKey)
      && (ParentSpanIdKey !in carrier ==> r.1.value.value.parentSpanId.None?)
      && Owns(r.0, r.1.value.value) && BaggageOf(r.0, r.1.value.value) == map[]
    ensures (Truthy(Lookup(carrier, TraceIdKey)) && Truthy(Lookup(carrier, SpanIdKey))
             && !(Lookup(carrier, TraceIdKey).Str? && Lookup(carrier, SpanIdKey).Str?))
      ==> r.1 == Err(TypeError)
    ensures r == Carriers.Extract(Keys, st, carrier)
  {
    Carriers.Extract(Keys, st, carrier)
  }

  /** Extract after inject gives back the trace id, span id and parent span
      id, whatever else the carrier held. */
  lemma RoundTrip(c: Ctx, carrier: Carrier, st: Store)
    ensures var r := Extract(st, Inject(c, carrier));
      && r.1.Ok? && r.1.value.Some?
      && r.1.value.value.traceId == c.traceId
      && r.1.value.value.spanId == c.spanId
      && r.1.value.value.parentSpanId == c.parentSpanId
  {
    Carriers.RoundTrip(Keys, c, carrier, st);
  }
}

=== FILE: tracer.dfy ===
/** Test::Tracer: the injector/extractor registry with `inject` and
    `extract`, parent resolution for new spans, span and scope bookkeeping,
    and `clear`. */
module Tracing {
  import opened Values
  import opened Ids
  import opened SpanContexts
  import opened Spans
  import opened ScopeStacks
  import opened Heap
  import opened ScopeManagers
  import TextMapCodec
  import RackCodec

  /** The OpenTracing format constants FORMAT_TEXT_MAP and FORMAT_RACK
      (the OpenTracing gem, which defines them, is not part of this model). */
  const FormatTextMap := Int(1)
  const FormatRack := Int(3)

  /** The object answers `inject`. */
  predicate AnswersInject(c: Codec) {
    c.TextMap? || c.Rack? || (c.UserCodec? && c.injectOp.Some?)
  }

  /** The object answers `extract`. */
  predicate AnswersExtract(c: Codec) {
    c.TextMap? || c.Rack? || (c.UserCodec? && c.extractOp.Some?)
  }

  /** `register_injector`: NullError for a nil or false format, then
      ArgumentError for an object that does not answer `inject`; otherwise
      the format's entry is set (replacing any earlier one) and nothing else
      changes. */
  function RegisterInjector(t: TracerState, format: Value, injector: Codec): (r: (TracerState, Result<()>))
    ensures !Truthy(format) ==> r == (t, Err(NullError))
    ensures Truthy(format) && !AnswersInject(injector) ==> r == (t, Err(ArgumentError))
    ensures Truthy(format) && AnswersInject(injector) ==>
      && r.1 == Ok(())
      && r.0 == t.(injectors := r.0.injectors)
      && r.0.injectors.Keys == t.injectors.Keys + {format}
      && r.0.injectors[format] == injector
      && (forall f :: f in t.injectors && f != format ==> r.0.injectors[f] == t.injectors[f])
  {
    if !Truthy(format) then (t, Err(NullError))
    else if !AnswersInject(injector) then (t, Err(ArgumentError))
    else (t.(injectors := t.injectors[format := injector]), Ok(()))
  }

  /** `register_extractor`: as `register_injector`, for `extract`. */
  function RegisterExtractor(t: TracerState, format: Value, extractor: Codec): (r: (TracerState, Result<()>))
    ensures !Truthy(format) ==> r == (t, Err(NullError))
    ensures Truthy(format) && !AnswersExtract(extractor) ==> r == (t, Err(ArgumentError))
    ensures Truthy(format) && AnswersExtract(extractor) ==>
      && r.1 == Ok(())
      && r.0 == t.(extractors := r.0.extractors)
      && r.0.extractors.Keys == t.extractors.Keys + {format}
      && r.0.extractors[format] == extractor
      && (forall f :: f in t.extractors && f != format ==> r.0.extractors[f] == t.extractors[f])
  {
    if !Truthy(format) then (t, Err(NullError))
    else if !AnswersExtract(extractor) then (t, Err(ArgumentError))
    else (t.(extractors := t.extractors[format := extractor]), Ok(()))
  }

  /** `register_codec`: registers one object as both injector and extractor
      of the format. An object answering `inject` but not `extract` stays
      registered as injector when the extractor registration raises. */
  function RegisterCodec(t: TracerState, format: Value, codec: Codec): (r: (TracerState, Result<()>))
    ensures r.1.Ok? <==> Truthy(format) && AnswersInject(codec) && AnswersExtract(codec)
    ensures r.1.Ok? ==>
      && format in r.0.injectors && r.0.injectors[format] == codec
      && format in r.0.extractors && r.0.extractors[format] == codec
    ensures !Truthy(format) ==> r == (t, Err(NullError))
    ensures Truthy(format) && !AnswersInject(codec) ==> r == (t, Err(ArgumentError))
    ensures Truthy(format) && AnswersInject(codec) && !AnswersExtract(codec) ==>
      && r.1 == Err(ArgumentError)
      && format in r.0.injectors && r.0.injectors[format] == codec
      && r.0.extractors == t.extractors
    ensures r.0.spans == t.spans && r.0.finished == t.finished && r.0.manager == t.manager
  {
    var (t1, ri) := RegisterInjector(t, format, codec);
    if ri.Err? then (t1, ri)
    else RegisterExtractor(t1, format, codec)
  }

  /** Registering twice for one format: the later object wins. */
  lemma LaterRegistrationWins(t: TracerState, format: Value, first: Codec, second: Codec)
    requires Truthy(format) && AnswersInject(first) && AnswersExtract(first)
    requires AnswersInject(second) && AnswersExtract(second)
    ensures var t2 := RegisterCodec(RegisterCodec(t, format, first).0, format, second).0;
      t2.injectors[format] == second && t2.extractors[format] == second
      && t2.injectors.Keys == t.injectors.Keys + {format}
  {
  }

  /** Test::Tracer.new: empty `spans` and `finished_spans`, the text-map and
      Rack codecs registered under their formats, the default unwrapper for
      spans and span contexts, and a scope manager whose stack is empty. */
  function Init(): (w: World)
    ensures w.tracer.spans == [] && w.tracer.finished == []
    ensures w.tracer.injectors.Keys == {FormatTextMap, FormatRack}
    ensures w.tracer.extractors.Keys == {FormatTextMap, FormatRack}
    ensures w.tracer.injectors[FormatTextMap] == TextMap && w.tracer.extractors[FormatTextMap] == TextMap
    ensures w.tracer.injectors[FormatRack] == Rack && w.tracer.extractors[FormatRack] == Rack
    ensures w.tracer.contextUnwrapper == DefaultUnwrapper
    ensures Contents(w.locals, w.tracer.manager.stack) == []
    ensures FinishedOnce(w)
  {
    var (next, stack) := NewStack(0);
    var t0 := TracerState([], [], ScopeManager(stack), map[], map[], DefaultUnwrapper, DefaultUnwrapper);
    var t1 := RegisterCodec(t0, FormatTextMap, TextMap).0;
    var t2 := RegisterCodec(t1, FormatRack, Rack).0;
    World(Store(next, []), [], [], map[], t2)
  }

  /** `extract_wrapped_span_context`: a native span context or nil passes
      through; anything else is handed to the unwrapper, nil when none is
      set. The default unwrapper answers a wrapper's `wrapped` object, and
      nil for an object without one. */
  function Unwrap(u: Unwrapper, h: Handle): (r: Handle)
    ensures h.NilH? || h.CtxH? ==> r == h
    ensures !(h.NilH? || h.CtxH?) && u.NoUnwrapper? ==> r == NilH
    ensures !(h.NilH? || h.CtxH?) && u.DefaultUnwrapper? ==>
      (h.Foreign? && h.wrapped.Some? ==> r == h.wrapped.value)
      && (!(h.Foreign? && h.wrapped.Some?) ==> r == NilH)
  {
    if h.NilH? || h.CtxH? then h
    else match u
      case NoUnwrapper => NilH
      case DefaultUnwrapper => if h.Foreign? && h.wrapped.Some? then h.wrapped.value else NilH
  }

  /** Tracer#inject: NullError for a nil format before anything else; the
      context argument is unwrapped; a nil carrier or a format with no
      injector leaves everything as it is; otherwise the injector writes the
      carrier. The built-in codecs need a native context (NoMethodError
      otherwise). */
  function Inject(t: TracerState, spanContext: Handle, format: Value, carrier: Option<Carrier>)
    : (r: Result<Option<Carrier>>)
    ensures !Truthy(format) ==> r == Err(NullError)
    ensures Truthy(format) && carrier.None? ==> r == Ok(None)
    ensures Truthy(format) && carrier.Some? && format !in t.injectors ==> r == Ok(carrier)
    ensures Truthy(format) && carrier.Some? && format in t.injectors ==>
      var c := Unwrap(t.contextUnwrapper, spanContext);
      match t.injectors[format]
      case TextMap => if c.CtxH? then r == Ok(Some(TextMapCodec.Inject(c.ctx, carrier.value))) else r == Err(NoMethodError)
      case Rack => if c.CtxH? then r == Ok(Some(RackCodec.Inject(c.ctx, carrier.value))) else r == Err(NoMethodError)
      case UserCodec(i, _) => if i.Some? then r == Ok(Some(i.value(c, carrier.value))) else r == Err(NoMethodError)
  {
    if !Truthy(format) then Err(NullError)
    else
      var c := Unwrap(t.contextUnwrapper, spanContext);
      if carrier.None? then Ok(None)
      else if format !in t.injectors then Ok(carrier)
      else match t.injectors[format]
        case TextMap => if c.CtxH? then Ok(Some(TextMapCodec.Inject(c.ctx, carrier.value))) else Err(NoMethodError)
        case Rack => if c.CtxH? then Ok(Some(RackCodec.Inject(c.ctx, carrier.value))) else Err(NoMethodError)
        case UserCodec(i, _) => if i.Some? then Ok(Some(i.value(c, carrier.value))) else Err(NoMethodError)
  }

  /** Maps a built-in codec's result to what Tracer#extract returns. */
  function AsHandle(r: Result<Option<Ctx>>): (h: Result<Handle>)
    ensures r.Err? ==> h == Err(r.error)
    ensures r.Ok? && r.value.None? ==> h == Ok(NilH)
    ensures r.Ok? && r.value.Some? ==> h == Ok(CtxH(r.value.value))
  {
    match r
    case Err(e) => Err(e)
    case Ok(None) => Ok(NilH)
    case Ok(Some(c)) => Ok(CtxH(c))
  }

  /** Tracer#extract: NullError for a nil format, then for a nil carrier; a
      format with no extractor gives nil; otherwise the extractor's answer.
      Only the built-in codecs allocate (the extracted context's empty
      baggage Hash); nothing but the store changes. */
  function Extract(w: World, format: Value, carrier: Option<Carrier>): (r: (World, Result<Handle>))
    requires Valid(w)
    ensures Valid(r.0) && Grows(w, r.0)
    ensures r.0 == w.(store := r.0.store)
    ensures !Truthy(format) || carrier.None? ==> r == (w, Err(NullError))
    ensures Truthy(format) && carrier.Some? && format !in w.tracer.extractors ==> r == (w, Ok(NilH))
    ensures Truthy(format) && carrier.Some? && format in w.tracer.extractors ==>
      match w.tracer.extractors[format]
      case TextMap =>
        var e := TextMapCodec.Extract(w.store, carrier.value);
        r == (w.(store := e.0), AsHandle(e.1))
      case Rack =>
        var e := RackCodec.Extract(w.store, carrier.value);
        r == (w.(store := e.0), AsHandle(e.1))
      case UserCodec(_, x) => if x.Some? then r == (w, Ok(x.value(carrier.value))) else r == (w, Err(NoMethodError))
    ensures r.1.Ok? && r.1.value.CtxH? && !w.tracer.extractors[format].UserCodec? ==> Owns(r.0.store, r.1.value.ctx)
    ensures FinishedOnce(w) ==> FinishedOnce(r.0)
  {
    if !Truthy(format) || carrier.None? then (w, Err(NullError))
    else if format !in w.tracer.extractors then (w, Ok(NilH))
    else match w.tracer.extractors[format]
      case TextMap =>
        var (st, e) := TextMapCodec.Extract(w.store, carrier.value);
        (w.(store := st), AsHandle(e))
      case Rack =>
        var (st, e) := RackCodec.Extract(w.store, carrier.value);
        (w.(store := st), AsHandle(e))
      case UserCodec(_, x) => if x.Some? then (w, Ok(x.value(carrier.value))) else (w, Err(NoMethodError))
  }

  /** Through the tracer, text-map inject then extract on a fresh tracer
      gives back a context with the same trace id, span id and parent span
      id (and new empty baggage). */
  lemma TextMapRoundTripThroughTracer(c: Ctx, carrier: Carrier)
    ensures var w := Init();
      var injected := Inject(w.tracer, CtxH(c), FormatTextMap, Some(carrier));
      && injected.Ok? && injected.value.Some?
      && var (w', got) := Extract(w, FormatTextMap, injected.value);
         && got.Ok? && got.value.CtxH?
         && got.value.ctx.traceId == c.traceId
         && got.value.ctx.spanId == c.spanId
         && got.value.ctx.parentSpanId == c.parentSpanId
         && BaggageOf(w'.store, got.value.ctx) == map[]
  {
    var w := Init();
    TextMapCodec.RoundTrip(c, carrier, w.store);
  }

  /** Through the tracer, Rack inject then extract on the same carrier finds
      nothing: inject writes `X-*` headers, extract reads `HTTP_X_*` keys. */
  lemma RackDoesNotRoundTripThroughTracer(c: Ctx)
    ensures var w := Init();
      var injected := Inject(w.tracer, CtxH(c), FormatRack, Some(map[]));
      && injected.Ok? && injected.value.Some?
      && Extract(w, FormatRack, injected.value) == (w, Ok(NilH))
  {
    var w := Init();
    RackCodec.InjectThenExtractFindsNothing(c, w.store);
    assert Inject(w.tracer, CtxH(c), FormatRack, Some(map[])) == Ok(Some(RackCodec.Inject(c, map[])));
  }

  /** Every context a reference list points at names an allocated object. */
  ghost predicate ValidReferences(w: World, refs: Option<seq<Reference>>) {
    refs.Some? ==> forall i :: 0 <= i < |refs.value| ==> ValidHandle(w, refs.value[i].context)
  }

  /** `context_from_child_of`: nil for nil; an object answering `context`
      (a span, or a foreign span) contributes that context; anything else is
      taken as the context itself. */
  function ContextFromChildOf(w: World, childOf: Handle): (r: Handle)
    requires Valid(w) && ValidHandle(w, childOf)
    ensures ValidHandle(w, r)
    ensures childOf.NilH? ==> r == NilH
    ensures childOf.SpanH? ==> r == CtxH(w.allSpans[childOf.span].ctx)
    ensures childOf.CtxH? ==> r == childOf
    ensures childOf.Foreign? && childOf.context.Some? ==> r == childOf.context.value
    ensures childOf.Foreign? && childOf.context.None? ==> r == childOf
  {
    match childOf
    case NilH => NilH
    case SpanH(s) => CtxH(w.allSpans[s].ctx)
    case CtxH(_) => childOf
    case Foreign(c, _) => if c.Some? then c.value else childOf
  }

  /** The index of the first CHILD_OF reference, if any. */
  function FirstChildOf(refs: seq<Reference>): (r: Option<nat>)
    ensures r.None? <==> forall i :: 0 <= i < |refs| ==> refs[i].kind != ChildOfKind
    ensures r.Some? ==>
      && r.value < |refs| && refs[r.value].kind == ChildOfKind
      && forall i :: 0 <= i < r.value ==> refs[i].kind != ChildOfKind
    decreases |refs|
  {
    if |refs| == 0 then None
    else if refs[0].kind == ChildOfKind then Some(0)
    else match FirstChildOf(refs[1..])
      case None => None
      case Some(i) => Some(i + 1)
  }

  /** `context_from_references`: nil for a nil or empty list; otherwise the
      context of the first CHILD_OF reference, or of the first reference when
      there is no CHILD_OF one. */
  function ContextFromReferences(refs: Option<seq<Reference>>): (r: Handle)
    ensures refs.None? || refs.value == [] ==> r == NilH
    ensures refs.Some? && refs.value != [] && (forall i :: 0 <= i < |refs.value| ==> refs.value[i].kind != ChildOfKind)
      ==> r == refs.value[0].context
    ensures refs.Some? ==>
      forall i :: (0 <= i < |refs.value| && refs.value[i].kind == ChildOfKind
                   && forall j :: 0 <= j < i ==> refs.value[j].kind != ChildOfKind)
        ==> r == refs.value[i].context
  {
    if refs.None? || refs.value == [] then NilH
    else match FirstChildOf(refs.value)
      case Some(i) => refs.value[i].context
      case None => refs.value[0].context
  }

  lemma ReferencesStayValid(w: World, refs: Option<seq<Reference>>)
    requires ValidReferences(w, refs)
    ensures ValidHandle(w, ContextFromReferences(refs))
  {
  }

  /** `context_from_active_scope`: nil when the active scope is ignored
      (the stack is not read) or when there is no active scope; otherwise
      the context of the active scope's span. */
  function ContextFromActiveScope(w: World, ignore: bool): (r: (World, Handle))
    requires Valid(w)
    ensures Valid(r.0) && ValidHandle(r.0, r.1)
    ensures ignore ==> r == (w, NilH)
    ensures !ignore ==> r.0 == w.(locals := Touch(w.locals, w.tracer.manager.stack))
    ensures var c := Contents(w.locals, w.tracer.manager.stack);
      && (!ignore && c == [] ==> r.1 == NilH)
      && (!ignore && c != [] ==> r.1 == CtxH(w.allSpans[w.allScopes[c[|c| - 1]].span].ctx))
  {
    if ignore then (w, NilH)
    else
      var (w1, a) := Active(w, w.tracer.manager);
      if a.None? then (w1, NilH)
      else (w1, CtxH(w.allSpans[w.allScopes[a.value].span].ctx))
  }

  /** The `||` chain of `prepare_span_context`: the first non-nil of the
      `child_of` argument, the references, and the active scope. The active
      scope is consulted (and the lazy stack store touched) only when both
      earlier sources are nil. */
  function ResolveParent(w: World, childOf: Handle, refs: Option<seq<Reference>>, ignore: bool)
    : (r: (World, Handle))
    requires Valid(w) && ValidHandle(w, childOf) && ValidReferences(w, refs)
    ensures Valid(r.0) && ValidHandle(r.0, r.1)
    ensures r.0 == w || r.0 == w.(locals := Touch(w.locals, w.tracer.manager.stack))
    ensures var fromChildOf := ContextFromChildOf(w, childOf);
      var fromRefs := ContextFromReferences(refs);
      && (!fromChildOf.NilH? ==> r == (w, fromChildOf))
      && (fromChildOf.NilH? && !fromRefs.NilH? ==> r == (w, fromRefs))
      && (fromChildOf.NilH? && fromRefs.NilH? ==> r == ContextFromActiveScope(w, ignore))
      && (r.0 != w ==> fromChildOf.NilH? && fromRefs.NilH? && !ignore)
      && (r.1.NilH? <==> fromChildOf.NilH? && fromRefs.NilH? && ContextFromActiveScope(w, ignore).1.NilH?)
  {
    var c1 := ContextFromChildOf(w, childOf);
    if !c1.NilH? then (w, c1)
    else
      var c2 := ContextFromReferences(refs);
      ReferencesStayValid(w, refs);
      if !c2.NilH? then (w, c2)
      else ContextFromActiveScope(w, ignore)
  }

  lemma UnwrapStaysValid(w: World, u: Unwrapper, h: Handle)
    requires ValidHandle(w, h)
    ensures ValidHandle(w, Unwrap(u, h))
  {
  }

  /** `c` is a new child of `p`: same trace, `p`'s span id as parent, `p`'s
      baggage Hash, and a span id not drawn before. */
  ghost predicate ChildContextOf(st: Store, c: Ctx, p: Ctx) {
    && c.traceId == p.traceId
    && c.parentSpanId == Some(p.spanId)
    && c.bag == p.bag
    && !IssuedBefore(c.spanId, st.nextId)
  }

  /** `c` is a new root made from store `st`, yielding `st'`. */
  ghost predicate RootContext(st: Store, st': Store, c: Ctx) {
    && c.parentSpanId == None
    && c.traceId != c.spanId
    && !IssuedBefore(c.traceId, st.nextId)
    && !IssuedBefore(c.spanId, st.nextId)
    && Owns(st', c) && BaggageOf(st', c) == map[]
  }

  /** The last step of `prepare_span_context`: a child of a native
      context, a root for nil, and NoMethodError for anything else (it has
      no `trace_id`). */
  function DeriveContext(w: World, parent: Handle): (r: (World, Result<Ctx>))
    requires Valid(w) && ValidHandle(w, parent)
    ensures Valid(r.0) && Grows(w, r.0)
    ensures r.0 == w.(store := r.0.store)
    ensures parent.NilH? ==> r.1.Ok? && RootContext(w.store, r.0.store, r.1.value)
    ensures parent.CtxH? ==> r.1.Ok? && ChildContextOf(w.store, r.1.value, parent.ctx)
    ensures !(parent.NilH? || parent.CtxH?) ==> r == (w, Err(NoMethodError))
    ensures r.1.Ok? ==> Owns(r.0.store, r.1.value) && !IssuedBefore(r.1.value.spanId, w.store.nextId)
    ensures FinishedOnce(w) ==> FinishedOnce(r.0)
  {
    match parent
    case NilH =>
      var (st, c) := Root(w.store);
      (w.(store := st), Ok(c))
    case CtxH(p) =>
      var (st, c) := ChildOf(w.store, p);
      (w.(store := st), Ok(c))
    case _ => (w, Err(NoMethodError))
  }

  /** `prepare_span_context`: resolves the parent, unwraps it, and derives
      a child of it, or a root when nothing resolved. Only the context store
      and, when the active scope is read, the lazily created stack store
      change. */
  function PrepareSpanContext(w: World, childOf: Handle, refs: Option<seq<Reference>>, ignore: bool)
    : (r: (World, Result<Ctx>))
    requires Valid(w) && ValidHandle(w, childOf) && ValidReferences(w, refs)
    ensures Valid(r.0) && Grows(w, r.0)
    ensures r.0.allSpans == w.allSpans && r.0.allScopes == w.allScopes && r.0.tracer == w.tracer
    ensures r.0.locals == w.locals || r.0.locals == Touch(w.locals, w.tracer.manager.stack)
    ensures r.1.Err? ==> r.1.error == NoMethodError
    ensures r.1.Ok? ==> Owns(r.0.store, r.1.value) && !IssuedBefore(r.1.value.spanId, w.store.nextId)
    ensures r.1.Ok? && r.1.value.parentSpanId.None? ==> RootContext(w.store, r.0.store, r.1.value)
    ensures var p := Unwrap(w.tracer.contextUnwrapper, ResolveParent(w, childOf, refs, ignore).1);
      && (p.CtxH? ==> r.1.Ok? && ChildContextOf(w.store, r.1.value, p.ctx))
      && (p.NilH? ==> r.1.Ok? && RootContext(w.store, r.0.store, r.1.value))
      && (!(p.NilH? || p.CtxH?) ==> r.1 == Err(NoMethodError))
    ensures FinishedOnce(w) ==> FinishedOnce(r.0)
  {
    var (w1, h) := ResolveParent(w, childOf, refs, ignore);
    UnwrapStaysValid(w1, w.tracer.contextUnwrapper, h);
    DeriveContext(w1, Unwrap(w.tracer.contextUnwrapper, h))
  }

  /** The common case: a native SpanContext passed as `child_of` becomes
      the parent, whatever the references and the active scope say. */
  lemma CtxArgumentIsParent(w: World, p: Ctx, refs: Option<seq<Reference>>, ignore: bool)
    requires Valid(w) && Owns(w.store, p) && ValidReferences(w, refs)
    ensures var (w', r) := PrepareSpanContext(w, CtxH(p), refs, ignore);
      && r.Ok? && ChildContextOf(w.store, r.value, p)
      && w'.locals == w.locals
  {
  }

  /** Parent resolution, first rule: once the `child_of` argument resolves,
      neither the references nor the active scope matter, and the stack is
      not read. */
  lemma ChildOfArgumentWins(w: World, childOf: Handle, refs1: Option<seq<Reference>>,
                            refs2: Option<seq<Reference>>, ignore1: bool, ignore2: bool)
    requires Valid(w) && ValidHandle(w, childOf) && ValidReferences(w, refs1) && ValidReferences(w, refs2)
    requires !ContextFromChildOf(w, childOf).NilH?
    ensures PrepareSpanContext(w, childOf, refs1, ignore1) == PrepareSpanContext(w, childOf, refs2, ignore2)
    ensures PrepareSpanContext(w, childOf, refs1, ignore1).0.locals == w.locals
  {
  }

  /** Second rule: with nothing from `child_of`, a reference list that
      resolves decides, whatever `ignore_active_scope` says, and the stack is
      not read. */
  lemma ReferencesBeforeActiveScope(w: World, childOf: Handle, refs: Option<seq<Reference>>, ignore1: bool, ignore2: bool)
    requires Valid(w) && ValidHandle(w, childOf) && ValidReferences(w, refs)
    requires ContextFromChildOf(w, childOf).NilH? && !ContextFromReferences(refs).NilH?
    ensures PrepareSpanContext(w, childOf, refs, ignore1) == PrepareSpanContext(w, childOf, refs, ignore2)
    ensures PrepareSpanContext(w, childOf, refs, ignore1).0.locals == w.locals
  {
  }

  /** Among the references, the first CHILD_OF one gives the parent. */
  lemma ChildOfReferencePreferred(w: World, refs: seq<Reference>, i: nat, p: Ctx, ignore: bool)
    requires Valid(w) && ValidReferences(w, Some(refs))
    requires i < |refs| && refs[i] == Reference(ChildOfKind, CtxH(p))
    requires forall j :: 0 <= j < i ==> refs[j].kind != ChildOfKind
    ensures var r := PrepareSpanContext(w, NilH, Some(refs), ignore).1;
      r.Ok? && ChildContextOf(w.store, r.value, p)
  {
  }

  /** Third rule: with nothing from `child_of` or references, the active
      span's context is the parent. */
  lemma ActiveSpanIsParent(w: World, refs: Option<seq<Reference>>)
    requires Valid(w) && (refs.None? || refs.value == [])
    requires Contents(w.locals, w.tracer.manager.stack) != []
    ensures var c := Contents(w.locals, w.tracer.manager.stack);
      var p := w.allSpans[w.allScopes[c[|c| - 1]].span].ctx;
      var r := PrepareSpanContext(w, NilH, refs, false).1;
      r.Ok? && ChildContextOf(w.store, r.value, p)
  {
  }

  /** `ignore_active_scope` with nothing else given: a root, even while a
      scope is active, and the stack is not read. */
  lemma IgnoredActiveScopeGivesRoot(w: World, refs: Option<seq<Reference>>)
    requires Valid(w) && (refs.None? || refs.value == [])
    ensures var (w', r) := PrepareSpanContext(w, NilH, refs, true);
      r.Ok? && RootContext(w.store, w'.store, r.value) && w'.locals == w.locals
  {
  }

  /** Nothing resolves and no scope is active: a root. */
  lemma NoParentGivesRoot(w: World, refs: Option<seq<Reference>>, ignore: bool)
    requires Valid(w) && (refs.None? || refs.value == [])
    requires Contents(w.locals, w.tracer.manager.stack) == []
    ensures var (w', r) := PrepareSpanContext(w, NilH, refs, ignore);
      r.Ok? && RootContext(w.store, w'.store, r.value)
  {
  }

  /** A span passed as `child_of` is the parent through its context. */
  lemma SpanArgumentIsParent(w: World, s: SpanRef, refs: Option<seq<Reference>>, ignore: bool)
    requires Valid(w) && s < |w.allSpans| && ValidReferences(w, refs)
    ensures var r := PrepareSpanContext(w, SpanH(s), refs, ignore).1;
      r.Ok? && ChildContextOf(w.store, r.value, w.allSpans[s].ctx)
  {
  }

  /** A wrapper span around native span `s`: it answers `wrapped` with `s`
      and `context` with a wrapper context whose `wrapped` is `s`'s context.
      The default unwrapper reaches that native context, which becomes the
      parent; without an unwrapper the wrapper counts as nil and the span is
      a root. */
  lemma WrappedParentIsUnwrapped(w: World, s: SpanRef, refs: Option<seq<Reference>>, ignore: bool)
    requires Valid(w) && s < |w.allSpans| && ValidReferences(w, refs)
    ensures var p := w.allSpans[s].ctx;
      var wrapperSpan := Foreign(Some(Foreign(None, Some(CtxH(p)))), Some(SpanH(s)));
      && Owns(w.store, p) && ValidHandle(w, wrapperSpan)
      && (w.tracer.contextUnwrapper == DefaultUnwrapper ==>
            var r := PrepareSpanContext(w, wrapperSpan, refs, ignore).1;
            r.Ok? && ChildContextOf(w.store, r.value, p))
      && (w.tracer.contextUnwrapper == NoUnwrapper ==>
            var (w', r) := PrepareSpanContext(w, wrapperSpan, refs, ignore);
            r.Ok? && RootContext(w.store, w'.store, r.value))
  {
  }

  /** The keyword arguments of `start_span`. */
  datatype SpanOptions = SpanOptions(
    childOf: Handle,
    references: Option<seq<Reference>>,
    startTime: Time,
    tags: Option<map<Value, Value>>,
    ignoreActiveScope: bool)

  /** No `child_of`, no references, no tags, the active scope consulted. */
  function DefaultOptions(startTime: Time): SpanOptions {
    SpanOptions(NilH, None, startTime, None, false)
  }

  ghost predicate ValidOptions(w: World, o: SpanOptions) {
    ValidHandle(w, o.childOf) && ValidReferences(w, o.references)
  }

  /** Every stack list is as it was: at most a new, empty one appears. */
  ghost predicate SameStacks(l: Locals, l': Locals) {
    && (forall k :: k in l ==> k in l' && l'[k] == l[k])
    && (forall k :: k in l' && k !in l ==> l'[k] == [])
  }

  lemma SameStacksContents(l: Locals, l': Locals, s: ScopeStack)
    requires SameStacks(l, l')
    ensures Contents(l', s) == Contents(l, s)
  {
  }

  /** The second half of `start_span`: creates the span on an already
      prepared context and appends it to `spans`. */
  function RecordSpan(w: World, ctx: Ctx, name: Value, o: SpanOptions): (r: (World, Result<SpanRef>))
    requires Valid(w) && Owns(w.store, ctx)
    ensures Valid(r.0) && Grows(w, r.0)
    ensures r.0.allScopes == w.allScopes && r.0.locals == w.locals && r.0.store == w.store
    ensures r.0.tracer == w.tracer.(spans := r.0.tracer.spans)
    ensures r.1.Ok? <==> name.Str?
    ensures r.1.Err? ==> r == (w, Err(TypeError))
    ensures r.1.Ok? ==>
      var s := r.1.value;
      && s == |w.allSpans| && |r.0.allSpans| == |w.allSpans| + 1
      && r.0.allSpans[..|w.allSpans|] == w.allSpans
      && r.0.tracer.spans == w.tracer.spans + [s]
      && r.0.allSpans[s].inProgress
      && r.0.allSpans[s].operationName == name.s
      && r.0.allSpans[s].startTime == o.startTime
      && r.0.allSpans[s].tags == (if o.tags.Some? then o.tags.value else map[])
      && r.0.allSpans[s].ctx == ctx
    ensures FinishedOnce(w) ==> FinishedOnce(r.0)
  {
    var (w2, ns) := NewSpan(w, ctx, name, o.startTime, o.tags);
    if ns.Err? then (w2, ns)
    else (w2.(tracer := w2.tracer.(spans := w2.tracer.spans + [ns.value])), ns)
  }

  /** Tracer#start_span as intended: prepares the context (NoMethodError
      first), creates the span (TypeError for a name that is not a String)
      and appends it to `spans`. Nothing is pushed on any scope stack. */
  function StartSpan(w: World, name: Value, o: SpanOptions): (r: (World, Result<SpanRef>))
    requires Valid(w) && ValidOptions(w, o)
    ensures Valid(r.0) && Grows(w, r.0)
    ensures r.0.allScopes == w.allScopes && SameStacks(w.locals, r.0.locals)
    ensures r.0.store == PrepareSpanContext(w, o.childOf, o.references, o.ignoreActiveScope).0.store
    ensures r.0.tracer == w.tracer.(spans := r.0.tracer.spans)
    ensures r.1.Ok? <==> name.Str? && PrepareSpanContext(w, o.childOf, o.references, o.ignoreActiveScope).1.Ok?
    ensures r.1.Err? ==>
      && r.0.tracer.spans == w.tracer.spans && r.0.allSpans == w.allSpans
      && (r.1.error == NoMethodError || r.1.error == TypeError)
    ensures r.1.Ok? ==>
      var s := r.1.value;
      && s == |w.allSpans| && |r.0.allSpans| == |w.allSpans| + 1
      && r.0.allSpans[..|w.allSpans|] == w.allSpans
      && r.0.tracer.spans == w.tracer.spans + [s]
      && r.0.allSpans[s].inProgress
      && r.0.allSpans[s].operationName == name.s
      && r.0.allSpans[s].startTime == o.startTime
      && r.0.allSpans[s].tags == (if o.tags.Some? then o.tags.value else map[])
      && r.0.allSpans[s].ctx == PrepareSpanContext(w, o.childOf, o.references, o.ignoreActiveScope).1.value
    ensures FinishedOnce(w) ==> FinishedOnce(r.0)
  {
    var (w1, pc) := PrepareSpanContext(w, o.childOf, o.references, o.ignoreActiveScope);
    if pc.Err? then (w1, Err(pc.error))
    else RecordSpan(w1, pc.value, name, o)
  }

  /** On a new tracer, `start_span` records exactly one span, finished
      nothing, and leaves the scope stack empty but created (reading the
      active scope created it), with no active scope. */
  lemma StartSpanOnNewTracer(name: string, start: Time)
    ensures var w := Init();
      var (w', r) := StartSpan(w, Str(name), DefaultOptions(start));
      && r.Ok? && w'.tracer.spans == [r.value] && w'.tracer.finished == []
      && Snapshot(w'.locals, w.tracer.manager.stack) == Some([])
      && w'.allSpans[r.value].ctx.parentSpanId.None?
  {
  }

  /** Tracer#start_span as written: `Span.new` is passed a `references:`
      keyword that Span#initialize does not declare, so after the context
      is prepared the call raises ArgumentError and no span is recorded. */
  function StartSpanAsWritten(w: World, name: Value, o: SpanOptions): (r: (World, Result<SpanRef>))
    requires Valid(w) && ValidOptions(w, o)
    ensures r.1.Err? && r.0.tracer == w.tracer && r.0.allSpans == w.allSpans
    ensures PrepareSpanContext(w, o.childOf, o.references, o.ignoreActiveScope).1.Ok? ==> r.1 == Err(ArgumentError)
  {
    var (w1, pc) := PrepareSpanContext(w, o.childOf, o.references, o.ignoreActiveScope);
    if pc.Err? then (w1, Err(pc.error)) else (w1, Err(ArgumentError))
  }

  /** The discrepancy on the plainest call: `start_span("op")` on a new
      tracer raises as written, and starts a span once Span accepts the
      keyword. */
  lemma StartSpanAsWrittenAlwaysRaises(start: Time)
    ensures StartSpanAsWritten(Init(), Str("op"), DefaultOptions(start)).1 == Err(ArgumentError)
    ensures StartSpan(Init(), Str("op"), DefaultOptions(start)).1.Ok?
  {
  }

  /** A block passed to `start_span`: it gets the world and the new span and
      returns the world after it ran and its value or exception. */
  type SpanBlock = (World, SpanRef) -> (World, Result<Value>)

  /** A block passed to `start_active_span`, given the new scope. */
  type ScopeBlock = (World, ScopeRef) -> (World, Result<Value>)

  /** Caller code run in a block keeps references valid, deallocates
      nothing, and (like every operation here) keeps finish-once. */
  ghost predicate SpanBlockKeepsHeap(block: SpanBlock) {
    forall w: World, s: SpanRef :: Valid(w) ==>
      && Valid(block(w, s).0) && Grows(w, block(w, s).0)
      && (FinishedOnce(w) ==> FinishedOnce(block(w, s).0))
  }

  ghost predicate ScopeBlockKeepsHeap(block: ScopeBlock) {
    forall w: World, s: ScopeRef :: Valid(w) ==>
      && Valid(block(w, s).0) && Grows(w, block(w, s).0)
      && (FinishedOnce(w) ==> FinishedOnce(block(w, s).0))
  }

  /** `start_span` with a block: the span is finished on every exit path,
      whether the block returned or raised, and the call returns what the
      block returned or raised, unless the block had already finished the
      span, in which case the closing `finish` raises. */
  function StartSpanBlock(w: World, name: Value, o: SpanOptions, block: SpanBlock, endTime: Time)
    : (r: (World, Result<Value>))
    requires Valid(w) && ValidOptions(w, o) && SpanBlockKeepsHeap(block)
    ensures Valid(r.0)
    ensures var (w1, started) := StartSpan(w, name, o);
      && (started.Err? ==> r == (w1, Err(started.error)))
      && (started.Ok? ==>
            var s := started.value;
            var (w2, v) := block(w1, s);
            && s < |r.0.allSpans| && r.0.allSpans[s].Finished()
            && (w2.allSpans[s].inProgress ==>
                  && r.1 == v
                  && r.0 == w2.(allSpans := w2.allSpans[s := w2.allSpans[s].(inProgress := false, endTime := Some(endTime))],
                                tracer := w2.tracer.(finished := w2.tracer.finished + [s])))
            && (w2.allSpans[s].Finished() ==> r.1 == Err(SpanAlreadyFinished) && r.0 == w2))
    ensures FinishedOnce(w) ==> FinishedOnce(r.0)
  {
    var (w1, started) := StartSpan(w, name, o);
    if started.Err? then (w1, Err(started.error))
    else
      var s := started.value;
      var (w2, v) := block(w1, s);
      var (w3, f) := Heap.Finish(w2, s, endTime);
      (w3, if f.Err? then Err(f.error) else v)
  }

  /** A block that only computes a value: `start_span` returns it and the
      span ends up in `finished_spans`, once. */
  lemma StartSpanBlockFinishesSpan(w: World, name: string, start: Time, v: Value, endTime: Time)
    requires FinishedOnce(w)
    ensures var block: SpanBlock := (w0: World, s: SpanRef) => (w0, Ok(v));
      var (w', r) := StartSpanBlock(w, Str(name), DefaultOptions(start), block, endTime);
      && r == Ok(v)
      && w'.tracer.finished == w.tracer.finished + [|w.allSpans|]
      && w'.tracer.spans == w.tracer.spans + [|w.allSpans|]
      && FinishedOnce(w')
  {
    var block: SpanBlock := (w0: World, s: SpanRef) => (w0, Ok(v));
    assert SpanBlockKeepsHeap(block);
    var o := DefaultOptions(start);
    var c := Contents(w.locals, w.tracer.manager.stack);
    if c == [] {
      NoParentGivesRoot(w, None, false);
    } else {
      ActiveSpanIsParent(w, None);
    }
  }

  /** Tracer#start_active_span without a block: starts the span, then
      activates it, so its new open scope is pushed on the tracer's stack and
      returned. */
  function StartActiveSpan(w: World, name: Value, o: SpanOptions, finishOnClose: bool)
    : (r: (World, Result<ScopeRef>))
    requires Valid(w) && ValidOptions(w, o)
    ensures Valid(r.0) && Grows(w, r.0)
    ensures r.1.Ok? <==> StartSpan(w, name, o).1.Ok?
    ensures var m := w.tracer.manager;
      && (r.1.Err? ==>
            && r.0.allScopes == w.allScopes
            && Contents(r.0.locals, m.stack) == Contents(w.locals, m.stack)
            && r.0.tracer.spans == w.tracer.spans)
      && (r.1.Ok? ==>
            var sc := r.1.value;
            && sc == |w.allScopes|
            && r.0.allScopes == w.allScopes + [Scope(|w.allSpans|, m.stack, finishOnClose, false)]
            && Contents(r.0.locals, m.stack) == Contents(w.locals, m.stack) + [sc]
            && r.0.tracer.spans == w.tracer.spans + [|w.allSpans|]
            && r.0.tracer.manager == m
            && |r.0.allSpans| == |w.allSpans| + 1
            && r.0.allSpans[|w.allSpans|].inProgress)
    ensures r.1.Ok? ==>
      var started := StartSpan(w, name, o).0;
      r.0.allSpans == started.allSpans && r.0.store == started.store && r.0.tracer == started.tracer
    ensures FinishedOnce(w) ==> FinishedOnce(r.0)
  {
    var (w1, started) := StartSpan(w, name, o);
    SameStacksContents(w.locals, w1.locals, w.tracer.manager.stack);
    if started.Err? then (w1, Err(started.error))
    else
      var m := w1.tracer.manager;
      ActivateKeepsInvariants(w1, m, started.value, finishOnClose);
      var (w2, sc) := Activate(w1, m, started.value, finishOnClose);
      (w2, Ok(sc))
  }

  /** Tracer#active_span: the span of the active scope, nil without one. */
  function ActiveSpan(w: World): (r: (World, Option<SpanRef>))
    requires Valid(w)
    ensures r.0 == w.(locals := Touch(w.locals, w.tracer.manager.stack))
    ensures var c := Contents(w.locals, w.tracer.manager.stack);
      && (r.1.None? <==> c == [])
      && (r.1.Some? ==> r.1.value == w.allScopes[c[|c| - 1]].span && r.1.value < |w.allSpans|)
  {
    var (w1, a) := Active(w, w.tracer.manager);
    (w1, if a.None? then None else Some(w.allScopes[a.value].span))
  }

  /** After `start_active_span` the new span is the active span. */
  lemma StartedSpanIsActive(w: World, name: Value, o: SpanOptions, foc: bool)
    requires Valid(w) && ValidOptions(w, o)
    requires StartSpan(w, name, o).1.Ok?
    ensures var (w', r) := StartActiveSpan(w, name, o, foc);
      ActiveSpan(w').1 == Some(|w.allSpans|)
  {
  }

  /** What closing the scope after the block ran means for the call, given
      the world and value `after` the block and the final outcome `r`. If
      the scope is still the top of its stack it is popped and marked
      closed, its span is finished iff `finish_on_close` (or it was finished
      already), and the call returns what the block returned or raised,
      unless `finish_on_close` met a span the block had finished, when the
      closing `finish` raises. Otherwise closing raises the non-active
      RuntimeError. Apart from the popped stack, the closed scope and that
      one finish (end time `now`, appended to `finished_spans`), the world
      is the block's. */
  ghost predicate ClosesAfterBlock(after: (World, Result<Value>), sc: ScopeRef, now: Time, r: (World, Result<Value>)) {
    var (w2, v) := after;
    && sc < |w2.allScopes|
    && (!OnTop(w2, sc) ==>
          r.1 == Err(NonActiveClose) && r.0 == w2.(locals := Touch(w2.locals, w2.allScopes[sc].stack)))
    && (OnTop(w2, sc) ==>
          var scope := w2.allScopes[sc];
          var c := Contents(w2.locals, scope.stack);
          var scopes := w2.allScopes[sc := scope.(closed := true)];
          && sc < |r.0.allScopes| && r.0.allScopes[sc].closed
          && Contents(r.0.locals, scope.stack) == c[..|c| - 1]
          && scope.span < |w2.allSpans| && scope.span < |r.0.allSpans|
          && (r.0.allSpans[scope.span].Finished() <==> scope.finishOnClose || w2.allSpans[scope.span].Finished())
          && ((!scope.finishOnClose || w2.allSpans[scope.span].inProgress) ==> r.1 == v)
          && (scope.finishOnClose && w2.allSpans[scope.span].Finished() ==> r.1 == Err(SpanAlreadyFinished))
          && (!scope.finishOnClose || w2.allSpans[scope.span].Finished() ==>
                r.0 == w2.(locals := r.0.locals, allScopes := scopes))
          && (scope.finishOnClose && w2.allSpans[scope.span].inProgress ==>
                r.0 == w2.(locals := r.0.locals, allScopes := scopes,
                           allSpans := w2.allSpans[scope.span := w2.allSpans[scope.span].(inProgress := false, endTime := Some(now))],
                           tracer := w2.tracer.(finished := w2.tracer.finished + [scope.span]))))
  }

  /** The closing half of `start_active_span` with a block: runs the block
      on the scope, then closes the scope, whatever the block did. */
  function RunScopeBlock(w: World, sc: ScopeRef, block: ScopeBlock, now: Time): (r: (World, Result<Value>))
    requires Valid(w) && sc < |w.allScopes| && ScopeBlockKeepsHeap(block)
    ensures Valid(r.0)
    ensures ClosesAfterBlock(block(w, sc), sc, now, r)
    ensures FinishedOnce(w) ==> FinishedOnce(r.0)
  {
    var (w2, v) := block(w, sc);
    var (w3, closed) := Close(w2, sc, now);
    (w3, if closed.Err? then Err(closed.error) else v)
  }

  /** `start_active_span` with a block: starts and activates the span, runs
      the block on the new scope and closes that scope on every exit path,
      returning the block's result as ClosesAfterBlock says. */
  function StartActiveSpanBlock(w: World, name: Value, o: SpanOptions, finishOnClose: bool,
                                block: ScopeBlock, now: Time)
    : (r: (World, Result<Value>))
    requires Valid(w) && ValidOptions(w, o) && ScopeBlockKeepsHeap(block)
    ensures Valid(r.0)
    ensures var a := StartActiveSpan(w, name, o, finishOnClose);
      var w1 := a.0;
      var started := a.1;
      && (started.Err? ==> r == (w1, Err(started.error)))
      && (started.Ok? ==>
            && started.value == |w.allScopes| && w1.allScopes[started.value].finishOnClose == finishOnClose
            && ClosesAfterBlock(block(w1, started.value), started.value, now, r))
    ensures FinishedOnce(w) ==> FinishedOnce(r.0)
  {
    var (w1, started) := StartActiveSpan(w, name, o, finishOnClose);
    if started.Err? then (w1, Err(started.error))
    else RunScopeBlock(w1, started.value, block, now)
  }

  /** With no `child_of` and no references, `start_span` succeeds for any
      String name, whether or not a scope is active. */
  lemma DefaultStartSucceeds(w: World, name: string, t: Time)
    requires Valid(w)
    ensures StartSpan(w, Str(name), DefaultOptions(t)).1.Ok?
  {
    if Contents(w.locals, w.tracer.manager.stack) == [] {
      NoParentGivesRoot(w, None, false);
    } else {
      ActiveSpanIsParent(w, None);
    }
  }

  /** A block that only computes a value: `start_active_span` returns it,
      the stack is as before, the scope is closed and (with
      `finish_on_close`) its span is finished. */
  lemma ActiveSpanBlockRestoresStack(w: World, name: string, start: Time, v: Value, now: Time)
    requires Valid(w)
    ensures var block: ScopeBlock := (w0: World, s: ScopeRef) => (w0, Ok(v));
      var res := StartActiveSpanBlock(w, Str(name), DefaultOptions(start), true, block, now);
      var w' := res.0;
      && res.1 == Ok(v)
      && Contents(w'.locals, w.tracer.manager.stack) == Contents(w.locals, w.tracer.manager.stack)
      && |w'.allScopes| > |w.allScopes| && w'.allScopes[|w.allScopes|].closed
      && |w'.allSpans| > |w.allSpans| && w'.allSpans[|w.allSpans|].Finished()
  {
    var block: ScopeBlock := (w0: World, s: ScopeRef) => (w0, Ok(v));
    assert ScopeBlockKeepsHeap(block);
    var o := DefaultOptions(start);
    var c := Contents(w.locals, w.tracer.manager.stack);
    DefaultStartSucceeds(w, name, start);
    var a := StartActiveSpan(w, Str(name), o, true);
    var w1 := a.0;
    var sc := a.1.value;
    assert w1.allScopes[sc].stack == w.tracer.manager.stack;
    assert OnTop(w1, sc);
    assert (c + [sc])[..|c|] == c;
  }

  /** What one `start_active_span` with default options does, from `w` to
      `w'` returning scope `sc`: one new span, one new scope for it pushed on
      the tracer's stack, and the new span's context a child of the active
      span's context, or a root when no scope was active. */
  ghost predicate ActiveChildStep(w: World, w': World, sc: ScopeRef) {
    var m := w.tracer.manager;
    var c := Contents(w.locals, m.stack);
    && |w'.allSpans| == |w.allSpans| + 1
    && w'.allSpans[..|w.allSpans|] == w.allSpans
    && sc == |w.allScopes| && |w'.allScopes| == sc + 1
    && w'.allScopes[..sc] == w.allScopes
    && w'.allScopes[sc].span == |w.allSpans|
    && w'.tracer.manager == m
    && Contents(w'.locals, m.stack) == c + [sc]
    && (c == [] ==> w'.allSpans[|w.allSpans|].ctx.parentSpanId.None?)
    && (c != [] && c[|c| - 1] < |w.allScopes| && w.allScopes[c[|c| - 1]].span < |w.allSpans| ==>
          var p := w.allSpans[w.allScopes[c[|c| - 1]].span].ctx;
          var n := w'.allSpans[|w.allSpans|].ctx;
          n.parentSpanId == Some(p.spanId) && n.traceId == p.traceId)
  }

  /** `start_active_span` with default options always succeeds and takes an
      ActiveChildStep. */
  lemma ActiveStartIsChildOfActive(w: World, name: string, t: Time, foc: bool)
    requires Valid(w)
    ensures var a := StartActiveSpan(w, Str(name), DefaultOptions(t), foc);
      a.1.Ok? && ActiveChildStep(w, a.0, a.1.value)
  {
    var a := StartActiveSpan(w, Str(name), DefaultOptions(t), foc);
    if Contents(w.locals, w.tracer.manager.stack) == [] {
      NoParentGivesRoot(w, None, false);
    } else {
      ActiveSpanIsParent(w, None);
    }
    assert a.0.allScopes[..|w.allScopes|] == w.allScopes;
  }

  /** From `w` to `w2` the tracer's stack gained scopes `s1` then `s2`, and
      the span of `s2` is a child of the span of `s1`: same trace, and its
      parent span id is the span id of `s1`'s span. */
  ghost predicate Nested(w: World, w2: World, s1: ScopeRef, s2: ScopeRef) {
    var m := w.tracer.manager;
    && Contents(w2.locals, m.stack) == Contents(w.locals, m.stack) + [s1, s2]
    && s1 < |w2.allScopes| && s2 < |w2.allScopes|
    && w2.allScopes[s1].span < |w2.allSpans| && w2.allScopes[s2].span < |w2.allSpans|
    && var p := w2.allSpans[w2.allScopes[s1].span].ctx;
       var c := w2.allSpans[w2.allScopes[s2].span].ctx;
       c.parentSpanId == Some(p.spanId) && c.traceId == p.traceId
  }

  /** Two active-child steps in a row nest. */
  lemma StepsNest(w: World, w1: World, s1: ScopeRef, w2: World, s2: ScopeRef)
    requires ActiveChildStep(w, w1, s1) && ActiveChildStep(w1, w2, s2)
    ensures Nested(w, w2, s1, s2)
  {
    var c0 := Contents(w.locals, w.tracer.manager.stack);
    var c1 := Contents(w1.locals, w.tracer.manager.stack);
    assert c1[|c1| - 1] == s1;
    assert w2.allScopes[s1] == w2.allScopes[..|w1.allScopes|][s1] == w1.allScopes[s1];
    assert w2.allSpans[|w.allSpans|] == w2.allSpans[..|w1.allSpans|][|w.allSpans|];
    assert c0 + [s1] + [s2] == c0 + [s1, s2];
  }

  /** Nested `start_active_span` calls: both succeed, the stack holds the
      parent's scope then the child's, and the child's span is a child of
      the parent's. */
  lemma NestedActiveSpans(w: World, parent: string, child: string, t1: Time, t2: Time, foc: bool)
    requires Valid(w)
    ensures var a1 := StartActiveSpan(w, Str(parent), DefaultOptions(t1), foc);
      && a1.1.Ok?
      && var a2 := StartActiveSpan(a1.0, Str(child), DefaultOptions(t2), foc);
         a2.1.Ok? && Nested(w, a2.0, a1.1.value, a2.1.value)
  {
    ActiveStartIsChildOfActive(w, parent, t1, foc);
    var a1 := StartActiveSpan(w, Str(parent), DefaultOptions(t1), foc);
    ActiveStartIsChildOfActive(a1.0, child, t2, foc);
    var a2 := StartActiveSpan(a1.0, Str(child), DefaultOptions(t2), foc);
    StepsNest(w, a1.0, a1.1.value, a2.0, a2.1.value);
  }

  /** Tracer#clear: empties `spans` and `finished_spans`; the spans
      themselves, the scopes and the registry are untouched. */
  function Clear(w: World): (r: World)
    ensures r.tracer.spans == [] && r.tracer.finished == []
    ensures r.allSpans == w.allSpans && r.allScopes == w.allScopes && r.locals == w.locals && r.store == w.store
    ensures r.tracer == w.tracer.(spans := [], finished := [])
    ensures Valid(w) ==> FinishedOnce(r)
  {
    w.(tracer := w.tracer.(spans := [], finished := []))
  }

  /** After `clear`, a span finished before stays finished (finishing it
      again still raises), while finishing an open span lists it alone. */
  lemma ClearForgetsOnlyTheLists(w: World, done: SpanRef, open: SpanRef, t: Time)
    requires Valid(w) && done < |w.allSpans| && open < |w.allSpans|
    requires w.allSpans[done].Finished() && w.allSpans[open].inProgress
    ensures Heap.Finish(Clear(w), done, t).1 == Err(SpanAlreadyFinished)
    ensures Heap.Finish(Clear(w), open, t).0.tracer.finished == [open]
  {
  }
}

=== FILE: values.dfy ===
/** Ruby values as the tracer sees them, the error taxonomy, and the
    `to_s` rendering the tracer applies to baggage items and tag values. */
module Values {

  datatype Option<+T> = None | Some(value: T)

  /** The outcome of an operation that may raise. */
  datatype Result<+T> = Ok(value: T) | Err(error: Error)

  /** The exceptions the tracer raises. `NonActiveClose` is the RuntimeError
      raised when a scope other than the top of its stack is closed;
      `NoMethodError` stands for calling `trace_id` (or similar) on an object
      that does not answer it; `Raised` is an exception raised by caller code
      inside a block. */
  datatype Error =
    | NullError
    | ArgumentError
    | TypeError
    | SpanAlreadyFinished
    | NonActiveClose
    | NoMethodError
    | Raised(code: nat)

  /** A Ruby value of the kinds the tracer distinguishes. Floats and all other
      objects (symbols, hashes given as tag values, ...) are opaque and carry
      their own `to_s` text. */
  datatype Value =
    | Nil
    | Bool(b: bool)
    | Int(i: int)
    | Float(text: string)
    | Str(s: string)
    | Other(text: string)

  /** Ruby truthiness: only `nil` and `false` are falsy. */
  predicate Truthy(v: Value) {
    !(v.Nil? || v == Bool(false))
  }

  /** A String-keyed Hash such as a propagation carrier. */
  type Carrier = map<string, Value>

  /** `hash[key]`: the stored value, or nil for a missing key. */
  function Lookup(h: Carrier, key: string): (v: Value)
    ensures key !in h ==> v == Nil
    ensures key in h ==> v == h[key]
  {
    if key in h then h[key] else Nil
  }

  function DigitChar(d: nat): (c: char)
    requires d < 10
    ensures '0' <= c <= '9'
  {
    "0123456789"[d]
  }

  function DigitValue(c: char): (d: nat)
    ensures '0' <= c <= '9' ==> d < 10 && DigitChar(d) == c
  {
    if '0' <= c <= '9' then (c as int - '0' as int) as nat else 0
  }

  /** The decimal rendering of a natural number (Integer#to_s). */
  function Decimal(n: nat): (s: string)
    ensures |s| > 0
    ensures forall k :: 0 <= k < |s| ==> '0' <= s[k] <= '9'
  {
    if n < 10 then [DigitChar(n)] else Decimal(n / 10) + [DigitChar(n % 10)]
  }

  /** Reads a string of decimal digits back as a number. */
  function ParseDecimal(s: string): nat {
    if |s| == 0 then 0 else ParseDecimal(s[..|s| - 1]) * 10 + DigitValue(s[|s| - 1])
  }

  /** Parsing inverts printing, so `Decimal` never maps two numbers to one text. */
  lemma {:induction false} DecimalRoundTrip(n: nat)
    ensures ParseDecimal(Decimal(n)) == n
  {
    var s := Decimal(n);
    if n < 10 {
      assert s[..|s| - 1] == [];
      assert DigitValue(DigitChar(n)) == n;
    } else {
      var prefix := Decimal(n / 10);
      assert s[..|s| - 1] == prefix;
      DecimalRoundTrip(n / 10);
      assert DigitValue(DigitChar(n % 10)) == n % 10;
    }
  }

  lemma DecimalInjective(m: nat, n: nat)
    ensures Decimal(m) == Decimal(n) ==> m == n
  {
    DecimalRoundTrip(m);
    DecimalRoundTrip(n);
  }

  /** Canonical decimal text: one or more digits, with no leading zero
      unless the text is "0" itself. */
  predicate CanonicalDecimal(s: string) {
    && |s| > 0
    && (forall k :: 0 <= k < |s| ==> '0' <= s[k] <= '9')
    && (s[0] == '0' ==> s == "0")
  }

  /** `Decimal` of a positive number never starts with '0'. */
  lemma {:induction false} DecimalLeadsWithNonZero(n: nat)
    requires n > 0
    ensures Decimal(n)[0] != '0'
  {
    if n >= 10 {
      DecimalLeadsWithNonZero(n / 10);
      assert Decimal(n)[0] == Decimal(n / 10)[0];
    }
  }

  lemma DecimalIsCanonical(n: nat)
    ensures CanonicalDecimal(Decimal(n))
  {
    if n > 0 {
      DecimalLeadsWithNonZero(n);
    }
  }

  /** The text of a negative number: a minus sign, then the canonical
      decimal text of its magnitude. */
  lemma MinusDecimal(n: nat)
    requires n > 0
    ensures var s := "-" + Decimal(n);
      && |s| > 1 && s[0] == '-' && s[1..] == Decimal(n) && s[1] != '0'
      && CanonicalDecimal(s[1..]) && ParseDecimal(s[1..]) == n
  {
    var s := "-" + Decimal(n);
    assert s[1..] == Decimal(n);
    DecimalRoundTrip(n);
    DecimalIsCanonical(n);
    DecimalLeadsWithNonZero(n);
  }

  /** Integer#to_s: canonical decimal text, with a leading minus sign when
      negative; it always parses back to the number. */
  function IntText(i: int): (s: string)
    ensures i >= 0 ==> CanonicalDecimal(s) && ParseDecimal(s) == i
    ensures i < 0 ==> |s| > 1 && s[0] == '-' && CanonicalDecimal(s[1..]) && s[1] != '0'
                      && ParseDecimal(s[1..]) == -i
  {
    if i < 0 then
      MinusDecimal(-i);
      "-" + Decimal(-i)
    else
      DecimalRoundTrip(i);
      DecimalIsCanonical(i);
      Decimal(i)
  }

  /** Ruby's `to_s`: `nil.to_s` is the empty string, strings are themselves,
      integers print in canonical decimal with a leading minus sign when
      negative. */
  function ToS(v: Value): (s: string)
    ensures v.Str? ==> s == v.s
    ensures v.Nil? ==> s == ""
    ensures v.Bool? ==> s == (if v.b then "true" else "false")
    ensures v.Int? && v.i >= 0 ==> CanonicalDecimal(s) && ParseDecimal(s) == v.i
    ensures v.Int? && v.i < 0 ==> |s| > 1 && s[0] == '-' && CanonicalDecimal(s[1..]) && s[1] != '0'
                                  && ParseDecimal(s[1..]) == -v.i
  {
    match v
    case Nil => ""
    case Bool(b) => if b then "true" else "false"
    case Int(i) => IntText(i)
    case Float(t) => t
    case Str(s) => s
    case Other(t) => t
  }

  /** Integers print distinctly: two Integers share a text only when they
      are equal, and no Integer prints as `nil` does, so baggage keys `0`
      and `nil` never collide. */
  lemma IntTextsDiffer(i: int, j: int)
    ensures ToS(Int(i)) == ToS(Int(j)) ==> i == j
    ensures ToS(Int(i)) != ToS(Nil)
  {
  }
}
